=== FILE: README.md ===
# ReqIF recursive-descent parser, in Dafny

This project models the parser of the ReqIF compiler playground
(`ReqIFCompiler.playground/Contents.swift`). The parser reads a list of
already-classified tokens that stand for the elements of one ReqIF
SPEC-OBJECT: its VALUES list of ATTRIBUTE-VALUE-STRING elements, each with a
DEFINITION holding an ATTRIBUTE-DEFINITION-STRING-REF, and its TYPE holding a
SPEC-OBJECT-TYPE-REF. It builds a syntax tree whose shape follows this
grammar:

    S          -> <spec-object> CONTENT </spec-object>
    CONTENT    -> <values> VCONTENT </values> <type> TCONTENT </type> | eps
    VCONTENT   -> <attribute-value-string> AVSCONTENT </attribute-value-string> VCONTENT | eps
    AVSCONTENT -> <definition> DCONTENT </definition>
    DCONTENT   -> <attribute-definition-string-ref> </attribute-definition-string-ref>
    TCONTENT   -> <spec-object-type-ref> </spec-object-type-ref>

The parser uses one token of lookahead and recovers from errors instead of
stopping. A terminal that does not match is reported, a leaf labelled with the
*expected* token takes its place, and the cursor does not move. A production
whose lookahead selects none of its alternatives is reported and returns the
ERROR leaf. The eps alternatives also return the ERROR leaf, without a report.

Modules, one per file:

- `Tokens` (tokens.dfy): the token enumeration and the parser's token
  comparison.
- `Ast` (ast.dfy): tree nodes, the shape each production's tree can take, the
  frontier (leaves left to right) and the length of a VCONTENT chain.
- `TokenStream` (lexer.dfy): the lexer, a read-only cursor over the tokens.
- `Parsing` (parser.dfy): the parser. The Swift class's mutable state (the
  lexer's counter and the buffered lookahead) is passed through pure
  functions. The printed syntax errors become a returned list of
  `Diagnostic`s. A production either `Returns` a tree and the state after
  it, or `Diverges`.
- `ParserProperties` (properties.dfy): for each production, what it returns on
  each alternative, the shape of its tree, and a condition on the input
  without which it always returns.
- `Grammar` (grammar.dfy): derivations of S written as data (`Document`), the
  token sequence each one spells (`DocumentTokens`) and its derivation tree
  (`DocumentTree`). The main result: the parser turns the former into the
  latter with no diagnostics.
- `Recognition` (recognition.dfy): the converse. A parse that returns with
  no diagnostics has read, from the first token on, the tokens of a derivation
  of S, and its tree is that derivation's tree. With `Grammar` this gives: the
  parser reports nothing exactly on the inputs that begin with the tokens of a
  SPEC-OBJECT derivation.
- `Demo` (demo.dfy): the twenty-token example from the playground and the tree
  printed for it, plus three small erroneous inputs.

Points where the code does something one might not expect:

- **Leaf label.** A matched terminal's leaf carries the expected token, not
  the one found. For opening tags the two are equal anyway: every production
  passes the lookahead's own payload to `eat`.
- **Closing-tag payloads.** The payload is compared on closing tags too. A
  closer in the input with a non-empty payload is a mismatch
  (`Tokens.ClosersMatchOnlyEmptyPayload`).
- **Empty CONTENT.** The eps alternative of CONTENT yields the ERROR leaf
  itself, not a CONTENT node. Every VCONTENT chain also ends in an ERROR leaf.
  So the round trip is stated on the frontier *without* ERROR leaves (`Ast.Frontier`).
- **Non-termination.** Parsing does not always terminate. Suppose VCONTENT
  is reached with the last token of the input, an opening
  ATTRIBUTE-VALUE-STRING tag, as its lookahead. It eats that tag without
  advancing, because there is no next token. AVSCONTENT and the closing-tag
  `eat` then each add one report and move nothing. So the recursive call
  starts from the same counter and lookahead, two reports longer, and the
  recursion never ends. The model names that outcome `Diverges` and proves
  the repetition (`ParserProperties.ExhaustedHeadRepeats`). It proves one
  direction only: a parse can fail to return only if the input ends with an
  opening ATTRIBUTE-VALUE-STRING tag (`ParserProperties.ParseResult`). The
  converse is false. `[Values(true), AttributeValueString("x", true)]` ends
  that way, but S rejects its first token and returns the ERROR leaf.
  `Demo.TrailingOpenValueDiverges` gives an input that does diverge.
- **Empty input.** The code traps on an empty input: reading the first token
  indexes past the end. The model makes non-empty input a precondition of
  `Parsing.Init`.

## Model

| member | source | states |
|---|---|---|
| `Tokens.TokensAreEqual` | ReqIFCompiler.playground/Contents.swift:178-193 | two tokens compare equal exactly when the first is a terminal, both stand for the same element, and they have the same payload and the same opening flag |
| `Tokens.TokensAreEqualIsStructural` | ReqIFCompiler.playground/Contents.swift:178-193 | the comparison is plain equality, restricted to terminals on the left |
| `Tokens.TokensAreEqualSymmetric` | ReqIFCompiler.playground/Contents.swift:178-193 | the comparison is symmetric |
| `Tokens.LabelsEqualNothing` | ReqIFCompiler.playground/Contents.swift:190-191 | a non-terminal label (ROOT, CONTENT, ..., ERROR) equals no token on either side, itself included, so the comparison is not reflexive |
| `Tokens.ClosersMatchOnlyEmptyPayload` | ReqIFCompiler.playground/Contents.swift:180-184 | the four payload-carrying closing tags the parser expects (SPEC-OBJECT, ATTRIBUTE-VALUE-STRING, SPEC-OBJECT-TYPE-REF, ATTRIBUTE-DEFINITION-STRING-REF) each match only the closer of the same kind with an empty payload; a closer with a payload is rejected |
| `TokenStream.NewLexer` | ReqIFCompiler.playground/Contents.swift:29-31 | a new lexer reads the caller's tokens and has all of them still to read |
| `TokenStream.HasNextToken` | ReqIFCompiler.playground/Contents.swift:39-44 | true exactly when the counter is below the number of tokens; `NextTokenExactlyWhenInputLeft` states it as "some input is still unread" |
| `TokenStream.GetNextToken` | ReqIFCompiler.playground/Contents.swift:33-37 | returns the token under the counter and moves the counter one on, and only when a token is left; `NextTokenTakesHead` and `ReadTokens` with `n = 1` state what it reads |
| `TokenStream.NextTokenExactlyWhenInputLeft` | ReqIFCompiler.playground/Contents.swift:39-44 | a token is left to read exactly when the unread rest of the input is non-empty |
| `TokenStream.NextTokenTakesHead` | ReqIFCompiler.playground/Contents.swift:33-37 | a read returns the head of the unread input, leaves its tail unread and keeps the same tokens |
| `TokenStream.Drain` | ReqIFCompiler.playground/Contents.swift:29-44 | starting from a new lexer and reading while a token is left returns the whole input, in order |
| `TokenStream.ReadTokens` | ReqIFCompiler.playground/Contents.swift:33-37 | `n` reads in a row return the next `n` tokens of the input, in order, and leave the counter `n` further on |
| `Parsing.Init` | ReqIFCompiler.playground/Contents.swift:52-55 | a new parser's lookahead is the first token, the counter is 1 and nothing is reported; the state invariant `Valid` (the lookahead is the token just read) holds from the start |
| `Parsing.Advance` | ReqIFCompiler.playground/Contents.swift:57-61 | advancing keeps the invariant; it reads one more token when one is left and otherwise leaves the state exactly as it was |
| `Parsing.Eat` | ReqIFCompiler.playground/Contents.swift:63-70 | the leaf is always labelled with the expected token; the counter moves on exactly when the lookahead compares equal and a token is left; a match reports nothing; a mismatch changes nothing but adds one expected-versus-found report |
| `Parsing.Parse` | ReqIFCompiler.playground/Contents.swift:71-74 | when the parse returns, its final state is valid and still reads the caller's tokens |
| `Parsing.ParseS` | ReqIFCompiler.playground/Contents.swift:76-89 | when S returns, its state is valid, later in the same input, and the earlier reports are kept |
| `Parsing.ParseContent` | ReqIFCompiler.playground/Contents.swift:91-112 | when CONTENT returns, its state is valid, later in the same input, and the earlier reports are kept |
| `Parsing.VContentHead` | ReqIFCompiler.playground/Contents.swift:118-123 | the first three steps of the non-empty VCONTENT alternative keep the invariant and move the counter on whenever a token was left |
| `Parsing.ParseVContent` | ReqIFCompiler.playground/Contents.swift:114-133 | when VCONTENT returns, its state is valid, later in the same input, and the earlier reports are kept |
| `Parsing.ParseTContent` | ReqIFCompiler.playground/Contents.swift:135-147 | TCONTENT keeps the invariant, never moves the counter back and keeps the earlier reports |
| `Parsing.ParseAvsContent` | ReqIFCompiler.playground/Contents.swift:149-162 | AVSCONTENT keeps the invariant, never moves the counter back and keeps the earlier reports |
| `Parsing.ParseDContent` | ReqIFCompiler.playground/Contents.swift:164-176 | DCONTENT keeps the invariant, never moves the counter back and keeps the earlier reports |
| `ParserProperties.DContentResult` | ReqIFCompiler.playground/Contents.swift:164-176 | on an opening ATTRIBUTE-DEFINITION-STRING-REF the result is a DCONTENT node of that leaf and the empty closer; on anything else it is the ERROR leaf with one report added; either way the tree has DCONTENT shape |
| `ParserProperties.TContentResult` | ReqIFCompiler.playground/Contents.swift:135-147 | on an opening SPEC-OBJECT-TYPE-REF the result is a TCONTENT node of that leaf and the empty closer; on anything else it is the ERROR leaf with one report added; either way the tree has TCONTENT shape |
| `ParserProperties.AvsContentResult` | ReqIFCompiler.playground/Contents.swift:149-162 | on an opening DEFINITION the result is a three-child AVSCONTENT node bracketed by the DEFINITION tags; on anything else it is the ERROR leaf with one report added; either way the tree has AVSCONTENT shape |
| `ParserProperties.VContentHeadResult` | ReqIFCompiler.playground/Contents.swift:120-123 | the first three children of a VCONTENT link are the opening tag found, an AVSCONTENT-shaped tree and the empty closing ATTRIBUTE-VALUE-STRING leaf |
| `ParserProperties.ExhaustedHeadRepeats` | ReqIFCompiler.playground/Contents.swift:118-124 | once the input is used up, the steps before the recursive VCONTENT call leave the counter and the lookahead unchanged and only add two reports, so the recursion restarts from the same cursor |
| `ParserProperties.VContentResult` | ReqIFCompiler.playground/Contents.swift:114-133 | every tree VCONTENT returns is a chain of well-formed links ending in the ERROR leaf; VCONTENT fails to return only when the input ends with an opening ATTRIBUTE-VALUE-STRING tag |
| `ParserProperties.VContentAlternatives` | ReqIFCompiler.playground/Contents.swift:118-133 | an opening ATTRIBUTE-VALUE-STRING yields a four-child VCONTENT link starting with it; a closing VALUES yields the ERROR leaf with nothing changed; anything else yields the ERROR leaf with one report |
| `ParserProperties.ContentValuesResult` | ReqIFCompiler.playground/Contents.swift:97-104 | on an opening VALUES, CONTENT returns a six-child CONTENT-shaped node starting with that leaf, or fails to return only on an input ending with an opening ATTRIBUTE-VALUE-STRING |
| `ParserProperties.ContentResult` | ReqIFCompiler.playground/Contents.swift:91-112 | CONTENT returns a CONTENT-shaped tree or fails only as above; a closing SPEC-OBJECT yields the ERROR leaf with nothing changed (eps); any other non-VALUES lookahead yields the ERROR leaf with one report |
| `ParserProperties.SResult` | ReqIFCompiler.playground/Contents.swift:76-89 | S returns a ROOT-shaped tree or fails to return only on an input ending with an opening ATTRIBUTE-VALUE-STRING |
| `ParserProperties.SAlternatives` | ReqIFCompiler.playground/Contents.swift:77-88 | an opening SPEC-OBJECT becomes the first leaf of a three-child ROOT node; any other lookahead yields the ERROR leaf with one report |
| `ParserProperties.ParseResult` | ReqIFCompiler.playground/Contents.swift:71-89 | a whole parse returns a ROOT-shaped tree or fails only on an input ending with an opening ATTRIBUTE-VALUE-STRING; an input not starting with an opening SPEC-OBJECT yields the ERROR leaf, one report and nothing read beyond the first token |
| `ParserProperties.ParseReturnsUnlessEndsInOpenAttributeValue` | ReqIFCompiler.playground/Contents.swift:118-125 | the termination half of `ParseResult`, stated on its own for callers: every non-empty input that does not end with an opening ATTRIBUTE-VALUE-STRING tag is parsed to a result |
| `Grammar.DContentAccepted` | ReqIFCompiler.playground/Contents.swift:164-176 | an opening ATTRIBUTE-DEFINITION-STRING-REF followed by its empty closer followed by at least one more token is parsed to its derivation tree, two tokens on, with nothing reported |
| `Grammar.TContentAccepted` | ReqIFCompiler.playground/Contents.swift:135-147 | an opening SPEC-OBJECT-TYPE-REF followed by its empty closer followed by at least one more token is parsed to its derivation tree, two tokens on, with nothing reported |
| `Grammar.DefinitionAccepted` | ReqIFCompiler.playground/Contents.swift:149-162 | the four tokens of a DEFINITION element, followed by at least one more token, are parsed to its derivation tree, four tokens on, with nothing reported |
| `Grammar.AttributeValueAccepted` | ReqIFCompiler.playground/Contents.swift:118-123 | the six tokens of an ATTRIBUTE-VALUE-STRING element, followed by at least one more token, yield the first three children of its VCONTENT link, six tokens on, with nothing reported |
| `Grammar.ValuesAccepted` | ReqIFCompiler.playground/Contents.swift:114-133 | the tokens of any list of ATTRIBUTE-VALUE-STRING elements, followed by a closing VALUES, are parsed to a VCONTENT chain with one link per element, stopping on the closer, with nothing reported |
| `Grammar.TypeAccepted` | ReqIFCompiler.playground/Contents.swift:101-103 | the four tokens of a TYPE element are eaten, parsed and eaten in turn to their leaves and derivation tree, with nothing reported |
| `Grammar.BodyAccepted` | ReqIFCompiler.playground/Contents.swift:97-104 | the tokens of a non-empty CONTENT are parsed to its six-child derivation tree, reading all of them, with nothing reported |
| `Grammar.EmptyContentAccepted` | ReqIFCompiler.playground/Contents.swift:105-106 | on a closing SPEC-OBJECT, CONTENT derives eps: the ERROR leaf, nothing read and nothing reported |
| `Grammar.ContentAccepted` | ReqIFCompiler.playground/Contents.swift:91-112 | the tokens of any CONTENT derivation, followed by a closing SPEC-OBJECT, are parsed to its derivation tree, reading exactly those tokens, with nothing reported |
| `Grammar.DocumentAccepted` | ReqIFCompiler.playground/Contents.swift:71-89 | the tokens of any derivation of S, followed by anything, are parsed to exactly its derivation tree with no reports, stopping right after the closing SPEC-OBJECT (or on it when it is the last token) |
| `Grammar.ValuesChainLength` | ReqIFCompiler.playground/Contents.swift:124-125 | the VCONTENT chain derived from a list has one link per ATTRIBUTE-VALUE-STRING element |
| `Grammar.DocumentFrontier` | ReqIFCompiler.playground/Contents.swift:76-89 | the leaves of a derivation tree, ERROR leaves left out, read back exactly the tokens of the derivation |
| `Grammar.WellFormedInputRoundTrip` | ReqIFCompiler.playground/Contents.swift:71-176 | for a well-formed input (followed by anything) the parse returns a ROOT tree whose non-ERROR leaves are the input up to the closing SPEC-OBJECT, reports nothing, and has one VCONTENT link per ATTRIBUTE-VALUE-STRING element |
| `Demo.DemoTokensDerived` | ReqIFCompiler.playground/Contents.swift:197 | the example's twenty tokens are the tokens of a derivation of S with two ATTRIBUTE-VALUE-STRING elements |
| `Demo.DemoTreeDerived` | ReqIFCompiler.playground/Contents.swift:226 | the tree printed for the example is that derivation's tree |
| `Demo.DemoParse` | ReqIFCompiler.playground/Contents.swift:197-226 | parsing the example yields the printed tree, reads every token and reports nothing |
| `Demo.DemoChain` | ReqIFCompiler.playground/Contents.swift:226 | the printed tree's VCONTENT chain has two links and ends in the ERROR leaf |
| `Demo.MissingContentRecovered` | ReqIFCompiler.playground/Contents.swift:76-112 | a closing VALUES where CONTENT should start gives a ROOT node with ERROR in place of CONTENT, a CONTENT report and a mismatch report for the missing closing SPEC-OBJECT, and leaves the cursor on the bad token |
| `Demo.WrongStartRejected` | ReqIFCompiler.playground/Contents.swift:77-88 | an input starting with anything but an opening SPEC-OBJECT yields the ERROR leaf and a single report, reading nothing beyond the first token |
| `Recognition.ValuesReadBack` | ReqIFCompiler.playground/Contents.swift:114-133 | the list of ATTRIBUTE-VALUE-STRING elements read back from a derived VCONTENT chain is the list it was derived from |
| `Recognition.DocumentReadBack` | ReqIFCompiler.playground/Contents.swift:76-112 | a derivation of S read back from its derivation tree is itself, so the tree determines the derivation |
| `Recognition.CleanEat` | ReqIFCompiler.playground/Contents.swift:57-70 | an `eat` that reports nothing found the expected token as lookahead, and read exactly that one token (staying on it at the end of the input) |
| `Recognition.CleanDContent` | ReqIFCompiler.playground/Contents.swift:164-176 | a DCONTENT that reports nothing found an opening ATTRIBUTE-DEFINITION-STRING-REF, returned the DCONTENT node of that tag and the empty closer, and read exactly those two tokens |
| `Recognition.CleanTContent` | ReqIFCompiler.playground/Contents.swift:135-147 | a TCONTENT that reports nothing found an opening SPEC-OBJECT-TYPE-REF, returned the TCONTENT derivation tree for its payload, and read exactly that tag and its empty closer |
| `Recognition.CleanAvsContent` | ReqIFCompiler.playground/Contents.swift:149-162 | an AVSCONTENT that reports nothing returned the derivation tree of some DEFINITION element and read exactly that element's four tokens |
| `Recognition.CleanVContentHead` | ReqIFCompiler.playground/Contents.swift:118-123 | the first three steps of a VCONTENT link, reporting nothing, built the link's first three children and read exactly the six tokens of one ATTRIBUTE-VALUE-STRING element |
| `Recognition.CleanVContent` | ReqIFCompiler.playground/Contents.swift:114-133 | a VCONTENT that returns and reports nothing built the chain derived from some list of ATTRIBUTE-VALUE-STRING elements, read exactly that list's tokens, and stopped on a closing VALUES |
| `Recognition.CleanType` | ReqIFCompiler.playground/Contents.swift:101-103 | the TYPE part of CONTENT, reporting nothing, built a TYPE derivation tree and read exactly its four tokens |
| `Recognition.CleanValues` | ReqIFCompiler.playground/Contents.swift:98-100 | the VALUES part of CONTENT, reporting nothing, built a derived VCONTENT chain and read exactly the VALUES tags around that chain's tokens |
| `Recognition.CleanContent` | ReqIFCompiler.playground/Contents.swift:91-112 | a CONTENT that returns and reports nothing built the derivation tree of some CONTENT derivation and read exactly its tokens |
| `Recognition.CleanParse` | ReqIFCompiler.playground/Contents.swift:71-89 | a whole parse that returns and reports nothing built the derivation tree of some derivation of S, whose tokens begin the input, and stopped right after them (or on the last of them when they fill the input) |
| `Recognition.ParseReportsNothingExactlyOnDocuments` | ReqIFCompiler.playground/Contents.swift:71-176 | both directions: a parse returns with no reports if and only if the input begins with the tokens of some derivation of S |
| `Demo.TrailingOpenValueDiverges` | ReqIFCompiler.playground/Contents.swift:118-125 | the three-token input `[SpecObject("a", true), Values(true), AttributeValueString("x", true)]` reaches VCONTENT with its last token, an opening ATTRIBUTE-VALUE-STRING, as lookahead, and has no result |

## Left out

- The `print` calls are not modelled as output. Each syntax error becomes a
  `Diagnostic` value appended to the parser state instead: `Mismatch` for
  `eat`, `NoAlternative` for a production's default branch. The text of the
  messages is not modelled.
- `import UIKit`, the lines that wire the example to a lexer and parser and
  print the result (198-201), and the XML in the comment block (203-222) are
  not modelled. The XML is only the source the tokens were cut from; the
  model starts from the tokens at line 197.
- Swift's class reference semantics are not modelled. The parser and lexer
  objects become values passed from one function to the next. Nothing else
  shares them, so no behaviour is lost.
- Parsing.Init: requires a non-empty input. On an empty one the source traps
  when it reads the first token; the model has no trap to express, so the
  case is excluded rather than given an error result.
- Tokens.TokensAreEqual: compares payloads as sequences of characters.
  Swift's `String ==` treats canonically equivalent strings as equal, so two
  differently encoded but equivalent payloads would compare unequal here and
  equal in the source. The parser never makes such a comparison. Every
  opening tag it eats carries the lookahead's own payload, and every closing
  tag it expects has the empty payload, which is equivalent only to itself.
- TokenStream.GetNextToken: requires a token to be left, for the same reason
  (reading past the end traps). The parser only calls it after
  `hasNextToken` or on a non-empty input.
- Parsing.ParseVContent: the endless recursion when VCONTENT is reached with
  the input's last token, an opening ATTRIBUTE-VALUE-STRING, as its lookahead
  is modelled as the outcome `Diverges`, not as
  a computation that runs forever. A stack overflow after finitely many
  calls, which is what would happen in practice, is not modelled.
- Parsing.ParseS, Parsing.ParseContent, Parsing.ParseVContent: their own
  contracts only state the state invariant. What each returns is stated in the
  `ParserProperties` lemmas, so that the recursive definitions stay cheap to
  unfold.

=== FILE: ast.dfy ===
/** The syntax tree: a token label and an ordered list of owned children. */
module Ast {
  import opened Tokens

  datatype Node = Node(value: Token, children: seq<Node>)

  function Leaf(t: Token): Node {
    Node(t, [])
  }

  /** The placeholder every production returns when nothing was parsed. */
  const ErrorLeaf: Node := Leaf(Error)

  /** The tokens on the leaves, left to right, leaving out ERROR placeholders. */
  function Frontier(n: Node): seq<Token>
    decreases n, 1
  {
    if n.children == [] then
      (if n.value == Error then [] else [n.value])
    else
      FrontierOf(n.children)
  }

  function FrontierOf(ns: seq<Node>): seq<Token>
    decreases ns, 0
  {
    if ns == [] then [] else Frontier(ns[0]) + FrontierOf(ns[1..])
  }

  /** Number of VCONTENT links threaded through the fourth child. */
  function ChainLength(n: Node): nat
    decreases n
  {
    if n.value == VContent && |n.children| == 4 then 1 + ChainLength(n.children[3]) else 0
  }

  /** A childless leaf for the opening tag of element `k`. */
  predicate OpenLeaf(n: Node, k: Tag) {
    n.children == [] && k != NoTag && TagOf(n.value) == k && n.value.open
  }

  /** A childless leaf for the closing tag of element `k`, with empty payload. */
  predicate CloseLeaf(n: Node, k: Tag) {
    n.children == [] && k != NoTag && TagOf(n.value) == k && !n.value.open && Payload(n.value) == ""
  }

  /* A tree each production can return: the ERROR leaf, or a node labelled
     with the production's non-terminal whose children follow its right-hand
     side, each opening tag paired with the closing tag of the same element. */

  predicate RootShaped(n: Node) {
    n == ErrorLeaf ||
    (n.value == Root && |n.children| == 3
     && OpenLeaf(n.children[0], SpecObjectTag) && ContentShaped(n.children[1])
     && CloseLeaf(n.children[2], SpecObjectTag))
  }

  predicate ContentShaped(n: Node) {
    n == ErrorLeaf ||
    (n.value == Content && |n.children| == 6
     && OpenLeaf(n.children[0], ValuesTag) && VContentShaped(n.children[1])
     && CloseLeaf(n.children[2], ValuesTag)
     && OpenLeaf(n.children[3], TypeTag) && TContentShaped(n.children[4])
     && CloseLeaf(n.children[5], TypeTag))
  }

  predicate VContentShaped(n: Node)
    decreases n
  {
    n == ErrorLeaf ||
    (n.value == VContent && |n.children| == 4
     && OpenLeaf(n.children[0], AttributeValueStringTag) && AvsContentShaped(n.children[1])
     && CloseLeaf(n.children[2], AttributeValueStringTag) && VContentShaped(n.children[3]))
  }

  predicate AvsContentShaped(n: Node) {
    n == ErrorLeaf ||
    (n.value == AvsContent && |n.children| == 3
     && OpenLeaf(n.children[0], DefinitionTag) && DContentShaped(n.children[1])
     && CloseLeaf(n.children[2], DefinitionTag))
  }

  predicate DContentShaped(n: Node) {
    n == ErrorLeaf ||
    (n.value == DContent && |n.children| == 2
     && OpenLeaf(n.children[0], AttributeDefinitionStringRefTag)
     && CloseLeaf(n.children[1], AttributeDefinitionStringRefTag))
  }

  predicate TContentShaped(n: Node) {
    n == ErrorLeaf ||
    (n.value == TContent && |n.children| == 2
     && OpenLeaf(n.children[0], SpecObjectTypeRefTag)
     && CloseLeaf(n.children[1], SpecObjectTypeRefTag))
  }
}

=== FILE: demo.dfy ===
/** The worked example that accompanies the parser: a SPEC-OBJECT with two
    ATTRIBUTE-VALUE-STRING elements and a TYPE reference, given as twenty
    tokens, and the tree the parser builds for it. Three small inputs next
    to it show the recovery from a missing element, the default branch of
    the start symbol, and an input on which the parser never returns
    because VCONTENT is reached with the last token, an opening
    ATTRIBUTE-VALUE-STRING tag, as its lookahead. */
module Demo {
  import opened Tokens
  import opened Ast
  import opened TokenStream
  import opened Parsing
  import opened Grammar

  const DemoTokens: seq<Token> := [
    SpecObject("_fdb3", true),
    Values(true),
    AttributeValueString("headline", true),
    Definition(true),
    AttributeDefinitionStringRef("_7257", true),
    AttributeDefinitionStringRef("", false),
    Definition(false),
    AttributeValueString("", false),
    AttributeValueString("", true),
    Definition(true),
    AttributeDefinitionStringRef("_15e0", true),
    AttributeDefinitionStringRef("", false),
    Definition(false),
    AttributeValueString("", false),
    Values(false),
    Type(true),
    SpecObjectTypeRef("_4638", true),
    SpecObjectTypeRef("", false),
    Type(false),
    SpecObject("", false)]

  /** The derivation the tokens spell out. */
  const DemoDocument: Document :=
    Document("_fdb3", Some(Body([AttributeValue("headline", "_7257"), AttributeValue("", "_15e0")], "_4638")))

  /** The tree the parser prints for the example, written out node by node. */
  const DemoTree: Node :=
    Node(Root, [
      Leaf(SpecObject("_fdb3", true)),
      Node(Content, [
        Leaf(Values(true)),
        Node(VContent, [
          Leaf(AttributeValueString("headline", true)),
          Node(AvsContent, [
            Leaf(Definition(true)),
            Node(DContent, [Leaf(AttributeDefinitionStringRef("_7257", true)), Leaf(AttributeDefinitionStringRef("", false))]),
            Leaf(Definition(false))]),
          Leaf(AttributeValueString("", false)),
          Node(VContent, [
            Leaf(AttributeValueString("", true)),
            Node(AvsContent, [
              Leaf(Definition(true)),
              Node(DContent, [Leaf(AttributeDefinitionStringRef("_15e0", true)), Leaf(AttributeDefinitionStringRef("", false))]),
              Leaf(Definition(false))]),
            Leaf(AttributeValueString("", false)),
            ErrorLeaf])]),
        Leaf(Values(false)),
        Leaf(Type(true)),
        Node(TContent, [Leaf(SpecObjectTypeRef("_4638", true)), Leaf(SpecObjectTypeRef("", false))]),
        Leaf(Type(false))]),
      Leaf(SpecObject("", false))])

  lemma ValuesTokensPair(a: AttributeValue, b: AttributeValue)
    ensures ValuesTokens([a, b]) == AttributeValueTokens(a) + AttributeValueTokens(b)
  {
    assert [a, b][1..] == [b] && [b][1..] == [];
    assert ValuesTokens([b]) == AttributeValueTokens(b) + [];
  }

  lemma DemoTokensDerived()
    ensures DocumentTokens(DemoDocument) == DemoTokens
  {
    ValuesTokensPair(AttributeValue("headline", "_7257"), AttributeValue("", "_15e0"));
  }

  lemma DemoTreeDerived()
    ensures DocumentTree(DemoDocument) == DemoTree
  {
    var vs := DemoDocument.content.value.values;
    assert vs[1..][1..] == [];
    assert ValuesTree(vs[1..][1..]) == ErrorLeaf;
  }

  /** The example parses to the printed tree with nothing reported,
      reading every token. */
  lemma DemoParse()
    ensures Parse(DemoTokens) == Returns(DemoTree, Parser(Lexer(DemoTokens, |DemoTokens|), SpecObject("", false), []))
  {
    DemoTokensDerived();
    DemoTreeDerived();
    DocumentAccepted(DemoDocument, []);
    assert DocumentTokens(DemoDocument) + [] == DemoTokens;
  }

  /** Its VCONTENT chain has two links and ends in the ERROR leaf. */
  lemma DemoChain()
    ensures ChainLength(DemoTree.children[1].children[1]) == 2
    ensures DemoTree.children[1].children[1].children[3].children[3] == ErrorLeaf
  {
    DemoTreeDerived();
    ValuesChainLength(DemoDocument.content.value.values);
  }

  /** A closing VALUES tag where CONTENT should start: CONTENT takes its
      default branch, and the closing SPEC-OBJECT tag is then reported as
      missing; the tree keeps its shape, with ERROR in place of CONTENT. */
  lemma MissingContentRecovered()
    ensures var ts := [SpecObject("a", true), Values(false), SpecObject("", false)];
      var r := Parse(ts);
      && r.Returns?
      && r.node == Node(Root, [Leaf(SpecObject("a", true)), ErrorLeaf, Leaf(SpecObject("", false))])
      && r.state.diagnostics == [NoAlternative(Content, Values(false)), Mismatch(SpecObject("", false), Values(false))]
      && r.state.lexer.counter == 2
  {
  }

  /** An input that does not start with an opening SPEC-OBJECT tag yields the
      ERROR leaf and one report, without reading further. */
  lemma WrongStartRejected()
    ensures var r := Parse([Values(true), SpecObject("a", true)]);
      && r.Returns? && r.node == ErrorLeaf
      && r.state.diagnostics == [NoAlternative(Root, Values(true))]
      && r.state.lexer.counter == 1
  {
  }

  /** This input reaches VCONTENT with its last token, an opening
      ATTRIBUTE-VALUE-STRING tag, as the lookahead: the parser never
      returns. */
  lemma TrailingOpenValueDiverges()
    ensures Parse([SpecObject("a", true), Values(true), AttributeValueString("x", true)]) == Diverges
  {
    var ts := [SpecObject("a", true), Values(true), AttributeValueString("x", true)];
    var p := Init(ts);
    var p1 := Eat(p, SpecObject("a", true)).1;
    assert p1.lexer.counter == 2 && p1.lookahead == Values(true);
    var p2 := Eat(p1, Values(true)).1;
    assert p2.lexer.counter == 3 && p2.lookahead == AttributeValueString("x", true);
    assert ParseVContent(p2) == Diverges;
  }
}

=== FILE: grammar.dfy ===
/** Inputs derived from the grammar, and what the parser makes of them.

    A `Document` is a derivation of the start symbol S written as data:
    the SPEC-OBJECT identifier and, unless CONTENT derives the empty word,
    its VALUES list and TYPE reference. `DocumentTokens` spells it out as
    the token sequence an external tokenizer would deliver (every closing
    tag with the payload ""), and `DocumentTree` is its derivation tree in
    the parser's node format. The parser turns the former into the latter,
    with no diagnostics, whatever follows the closing SPEC-OBJECT tag. */
module Grammar {
  import opened Tokens
  import opened Ast
  import opened Parsing

  datatype Option<T> = None | Some(value: T)

  /** An ATTRIBUTE-VALUE-STRING element: its THE-VALUE payload and the
      reference inside its DEFINITION. */
  datatype AttributeValue = AttributeValue(theValue: string, definitionRef: string)

  /** The non-empty derivation of CONTENT: the VALUES list and the
      SPEC-OBJECT-TYPE-REF inside TYPE. */
  datatype Body = Body(values: seq<AttributeValue>, typeRef: string)

  datatype Document = Document(identifier: string, content: Option<Body>)

  // ---- token sequences ----

  function DefinitionTokens(ref: string): seq<Token> {
    [Definition(true), AttributeDefinitionStringRef(ref, true), AttributeDefinitionStringRef("", false), Definition(false)]
  }

  function AttributeValueTokens(a: AttributeValue): seq<Token> {
    [AttributeValueString(a.theValue, true)] + DefinitionTokens(a.definitionRef) + [AttributeValueString("", false)]
  }

  function ValuesTokens(vs: seq<AttributeValue>): seq<Token>
    decreases |vs|
  {
    if vs == [] then [] else AttributeValueTokens(vs[0]) + ValuesTokens(vs[1..])
  }

  function TypeTokens(ref: string): seq<Token> {
    [Type(true), SpecObjectTypeRef(ref, true), SpecObjectTypeRef("", false), Type(false)]
  }

  function ContentTokens(c: Option<Body>): seq<Token> {
    match c
    case None => []
    case Some(b) => [Values(true)] + ValuesTokens(b.values) + [Values(false)] + TypeTokens(b.typeRef)
  }

  function DocumentTokens(d: Document): seq<Token> {
    [SpecObject(d.identifier, true)] + ContentTokens(d.content) + [SpecObject("", false)]
  }

  // ---- derivation trees ----

  function DefinitionTree(ref: string): Node {
    Node(AvsContent, [
      Leaf(Definition(true)),
      Node(DContent, [Leaf(AttributeDefinitionStringRef(ref, true)), Leaf(AttributeDefinitionStringRef("", false))]),
      Leaf(Definition(false))])
  }

  function ValuesTree(vs: seq<AttributeValue>): Node
    decreases |vs|
  {
    if vs == [] then
      ErrorLeaf
    else
      Node(VContent, [
        Leaf(AttributeValueString(vs[0].theValue, true)),
        DefinitionTree(vs[0].definitionRef),
        Leaf(AttributeValueString("", false)),
        ValuesTree(vs[1..])])
  }

  function TypeTree(ref: string): Node {
    Node(TContent, [Leaf(SpecObjectTypeRef(ref, true)), Leaf(SpecObjectTypeRef("", false))])
  }

  function ContentTree(c: Option<Body>): Node {
    match c
    case None => ErrorLeaf
    case Some(b) =>
      Node(Content, [
        Leaf(Values(true)), ValuesTree(b.values), Leaf(Values(false)),
        Leaf(Type(true)), TypeTree(b.typeRef), Leaf(Type(false))])
  }

  function DocumentTree(d: Document): Node {
    Node(Root, [Leaf(SpecObject(d.identifier, true)), ContentTree(d.content), Leaf(SpecObject("", false))])
  }

  // ---- the cursor over a known stretch of input ----

  /** The token at position `i`; quantified facts about the input are
      stated through it so that they apply only where it is named. */
  function At(tokens: seq<Token>, i: int): Token
    requires 0 <= i < |tokens|
  {
    tokens[i]
  }

  /** The input holds `seg` from the lookahead on, and at least one more
      token after it. */
  predicate Ahead(p: Parser, seg: seq<Token>) {
    && Valid(p)
    && p.lexer.counter + |seg| <= |p.lexer.tokens|
    && forall i :: p.lexer.counter - 1 <= i < p.lexer.counter - 1 + |seg| ==>
         At(p.lexer.tokens, i) == seg[i - (p.lexer.counter - 1)]
  }

  /** The token right after `seg`. */
  function Follower(p: Parser, seg: seq<Token>): Token
    requires Ahead(p, seg)
  {
    p.lexer.tokens[p.lexer.counter - 1 + |seg|]
  }

  /** The state `n` tokens further on, with nothing reported. */
  function Skip(p: Parser, n: nat): (q: Parser)
    requires Valid(p) && p.lexer.counter + n <= |p.lexer.tokens|
    ensures Valid(q) && q.lexer.tokens == p.lexer.tokens && q.lexer.counter == p.lexer.counter + n
    ensures q.diagnostics == p.diagnostics
  {
    p.(lexer := p.lexer.(counter := p.lexer.counter + n), lookahead := p.lexer.tokens[p.lexer.counter + n - 1])
  }

  lemma SkipSkip(p: Parser, m: nat, n: nat, k: nat)
    requires Valid(p) && k == m + n && p.lexer.counter + k <= |p.lexer.tokens|
    ensures Skip(Skip(p, m), n) == Skip(p, k)
  {
  }

  /** A fresh parser over `seg` followed by at least one more token. */
  lemma AheadOfStart(p: Parser, seg: seq<Token>, more: seq<Token>)
    requires Valid(p) && p.lexer.counter == 1 && p.lexer.tokens == seg + more && more != []
    ensures Ahead(p, seg) && Follower(p, seg) == more[0]
  {
    forall i | 0 <= i < |seg|
      ensures At(p.lexer.tokens, i) == seg[i]
    {
      assert (seg + more)[i] == seg[i];
    }
    assert (seg + more)[|seg|] == more[0];
  }

  lemma AheadSplit(p: Parser, a: seq<Token>, b: seq<Token>)
    requires Ahead(p, a + b)
    ensures Ahead(p, a) && Ahead(Skip(p, |a|), b)
    ensures |b| > 0 ==> Follower(p, a) == b[0]
    ensures Follower(Skip(p, |a|), b) == Follower(p, a + b)
  {
    var lo := p.lexer.counter - 1;
    forall i | lo <= i < lo + |a|
      ensures At(p.lexer.tokens, i) == a[i - lo]
    {
      assert At(p.lexer.tokens, i) == (a + b)[i - lo];
    }
    forall i | lo + |a| <= i < lo + |a| + |b|
      ensures At(p.lexer.tokens, i) == b[i - lo - |a|]
    {
      assert At(p.lexer.tokens, i) == (a + b)[i - lo];
    }
    if |b| > 0 {
      assert At(p.lexer.tokens, lo + |a|) == (a + b)[|a|];
    }
  }

  lemma AheadHead(p: Parser, t: Token, rest: seq<Token>)
    requires Ahead(p, [t] + rest)
    ensures p.lookahead == t && !Exhausted(p)
    ensures Ahead(Skip(p, 1), rest) && Follower(Skip(p, 1), rest) == Follower(p, [t] + rest)
  {
    assert At(p.lexer.tokens, p.lexer.counter - 1) == ([t] + rest)[0];
    AheadSplit(p, [t], rest);
  }

  /** A terminal that is next in the input, with a token after it, is eaten. */
  lemma EatNext(p: Parser, t: Token, rest: seq<Token>)
    requires Ahead(p, [t] + rest) && IsTerminal(t)
    ensures Eat(p, t) == (Leaf(t), Skip(p, 1))
    ensures Ahead(Skip(p, 1), rest) && Follower(Skip(p, 1), rest) == Follower(p, [t] + rest)
  {
    AheadHead(p, t, rest);
  }

  // ---- acceptance, production by production ----

  /** The four tokens of a fixed-length element, read off by position. */
  lemma AheadFour(p: Parser, a: Token, b: Token, c: Token, d: Token)
    requires Ahead(p, [a, b, c, d])
    ensures p.lexer.counter + 4 <= |p.lexer.tokens|
    ensures p.lookahead == a && Skip(p, 1).lookahead == b && Skip(p, 2).lookahead == c && Skip(p, 3).lookahead == d
  {
    var lo := p.lexer.counter - 1;
    assert At(p.lexer.tokens, lo) == a && At(p.lexer.tokens, lo + 1) == b;
    assert At(p.lexer.tokens, lo + 2) == c && At(p.lexer.tokens, lo + 3) == d;
  }

  /** A terminal found as the lookahead, with a token after it, is eaten. */
  lemma EatAt(p: Parser, t: Token)
    requires Valid(p) && p.lexer.counter < |p.lexer.tokens| && p.lookahead == t && IsTerminal(t)
    ensures Eat(p, t) == (Leaf(t), Skip(p, 1))
  {
  }

  lemma DContentAccepted(p: Parser, ref: string)
    requires Valid(p) && p.lexer.counter + 2 <= |p.lexer.tokens|
    requires p.lookahead == AttributeDefinitionStringRef(ref, true)
    requires Skip(p, 1).lookahead == AttributeDefinitionStringRef("", false)
    ensures ParseDContent(p) ==
      (Node(DContent, [Leaf(AttributeDefinitionStringRef(ref, true)), Leaf(AttributeDefinitionStringRef("", false))]), Skip(p, 2))
  {
  }

  lemma TContentAccepted(p: Parser, ref: string)
    requires Valid(p) && p.lexer.counter + 2 <= |p.lexer.tokens|
    requires p.lookahead == SpecObjectTypeRef(ref, true)
    requires Skip(p, 1).lookahead == SpecObjectTypeRef("", false)
    ensures ParseTContent(p) == (TypeTree(ref), Skip(p, 2))
  {
  }

  /** The AVSCONTENT alternative assembled from its three steps. */
  lemma AvsContentSteps(p: Parser, dc: Node, p1: Parser, p2: Parser, p3: Parser)
    requires Valid(p) && p.lookahead == Definition(true)
    requires Eat(p, Definition(true)).1 == p1 && Valid(p1)
    requires ParseDContent(p1) == (dc, p2) && Valid(p2)
    requires Eat(p2, Definition(false)).1 == p3
    ensures ParseAvsContent(p) == (Node(AvsContent, [Leaf(Definition(true)), dc, Leaf(Definition(false))]), p3)
  {
  }

  lemma DefinitionAccepted(p: Parser, ref: string)
    requires Ahead(p, DefinitionTokens(ref))
    ensures ParseAvsContent(p) == (DefinitionTree(ref), Skip(p, 4))
  {
    var a1, a2 := AttributeDefinitionStringRef(ref, true), AttributeDefinitionStringRef("", false);
    AheadFour(p, Definition(true), a1, a2, Definition(false));
    SkipSkip(p, 1, 1, 2);
    SkipSkip(p, 1, 2, 3);
    SkipSkip(p, 3, 1, 4);
    EatAt(p, Definition(true));
    DContentAccepted(Skip(p, 1), ref);
    EatAt(Skip(p, 3), Definition(false));
    AvsContentSteps(p, Node(DContent, [Leaf(a1), Leaf(a2)]), Skip(p, 1), Skip(p, 3), Skip(p, 4));
  }

  /** The head of the non-empty VCONTENT alternative assembled from its
      three steps. */
  lemma VContentHeadSteps(p: Parser, c2: Node, p1: Parser, p2: Parser, p3: Parser)
    requires Valid(p) && p.lookahead.AttributeValueString? && p.lookahead.open
    requires Eat(p, p.lookahead).1 == p1 && Valid(p1)
    requires ParseAvsContent(p1) == (c2, p2) && Valid(p2)
    requires Eat(p2, AttributeValueString("", false)).1 == p3
    ensures VContentHead(p) == (Leaf(p.lookahead), c2, Leaf(AttributeValueString("", false)), p3)
  {
    assert AttributeValueString(p.lookahead.value, true) == p.lookahead;
  }

  /** Where the pieces of an ATTRIBUTE-VALUE-STRING element lie. */
  lemma AttributeValueOpened(p: Parser, a: AttributeValue)
    requires Ahead(p, AttributeValueTokens(a))
    ensures p.lexer.counter + 6 <= |p.lexer.tokens|
    ensures p.lookahead == AttributeValueString(a.theValue, true)
    ensures Ahead(Skip(p, 1), DefinitionTokens(a.definitionRef))
    ensures Skip(p, 5).lookahead == AttributeValueString("", false)
  {
    var o, c := AttributeValueString(a.theValue, true), AttributeValueString("", false);
    var dt := DefinitionTokens(a.definitionRef);
    assert AttributeValueTokens(a) == [o] + (dt + [c]);
    AheadHead(p, o, dt + [c]);
    AheadSplit(Skip(p, 1), dt, [c]);
    SkipSkip(p, 1, 4, 5);
  }

  lemma AttributeValueAccepted(p: Parser, a: AttributeValue)
    requires Ahead(p, AttributeValueTokens(a))
    ensures p.lookahead == AttributeValueString(a.theValue, true)
    ensures VContentHead(p) ==
      (Leaf(AttributeValueString(a.theValue, true)), DefinitionTree(a.definitionRef),
       Leaf(AttributeValueString("", false)), Skip(p, 6))
  {
    AttributeValueOpened(p, a);
    EatAt(p, p.lookahead);
    DefinitionAccepted(Skip(p, 1), a.definitionRef);
    SkipSkip(p, 1, 4, 5);
    EatAt(Skip(p, 5), AttributeValueString("", false));
    SkipSkip(p, 5, 1, 6);
    VContentHeadSteps(p, DefinitionTree(a.definitionRef), Skip(p, 1), Skip(p, 5), Skip(p, 6));
  }

  /** The non-empty VCONTENT alternative assembled from its head and its
      recursive call. */
  lemma VContentSteps(p: Parser, c1: Node, c2: Node, c3: Node, q: Parser, c4: Node, q': Parser)
    requires Valid(p) && p.lookahead.AttributeValueString? && p.lookahead.open && !Exhausted(p)
    requires VContentHead(p) == (c1, c2, c3, q)
    requires ParseVContent(q) == Returns(c4, q')
    ensures ParseVContent(p) == Returns(Node(VContent, [c1, c2, c3, c4]), q')
  {
  }

  /** One ATTRIBUTE-VALUE-STRING element, then whatever the recursive call
      makes of the rest. */
  lemma AttributeValueStep(p: Parser, a: AttributeValue, c4: Node, q': Parser)
    requires Ahead(p, AttributeValueTokens(a))
    requires ParseVContent(Skip(p, 6)) == Returns(c4, q')
    ensures ParseVContent(p) == Returns(
      Node(VContent, [Leaf(AttributeValueString(a.theValue, true)), DefinitionTree(a.definitionRef),
                      Leaf(AttributeValueString("", false)), c4]), q')
  {
    AttributeValueAccepted(p, a);
    VContentSteps(p, Leaf(AttributeValueString(a.theValue, true)), DefinitionTree(a.definitionRef),
                  Leaf(AttributeValueString("", false)), Skip(p, 6), c4, q');
  }

  /** A non-empty VALUES list: its first element, then the rest. */
  lemma ValuesSplit(p: Parser, vs: seq<AttributeValue>)
    requires Ahead(p, ValuesTokens(vs)) && Follower(p, ValuesTokens(vs)) == Values(false) && vs != []
    ensures |ValuesTokens(vs)| == 6 + |ValuesTokens(vs[1..])|
    ensures Ahead(p, AttributeValueTokens(vs[0]))
    ensures Ahead(Skip(p, 6), ValuesTokens(vs[1..])) && Follower(Skip(p, 6), ValuesTokens(vs[1..])) == Values(false)
  {
    AheadSplit(p, AttributeValueTokens(vs[0]), ValuesTokens(vs[1..]));
  }

  /** A VALUES list followed by the closing VALUES tag is parsed into the
      VCONTENT chain of its derivation, consuming exactly its tokens. */
  lemma {:induction false} ValuesAccepted(p: Parser, vs: seq<AttributeValue>)
    requires Ahead(p, ValuesTokens(vs)) && Follower(p, ValuesTokens(vs)) == Values(false)
    ensures ParseVContent(p) == Returns(ValuesTree(vs), Skip(p, |ValuesTokens(vs)|))
    decreases |vs|
  {
    if vs == [] {
      assert p.lookahead == Values(false);
      assert Skip(p, 0) == p;
    } else {
      var q := Skip(p, 6);
      var q' := Skip(q, |ValuesTokens(vs[1..])|);
      ValuesSplit(p, vs);
      ValuesAccepted(q, vs[1..]);
      AttributeValueStep(p, vs[0], ValuesTree(vs[1..]), q');
      SameState(q', Skip(p, |ValuesTokens(vs)|));
    }
  }

  lemma TypeAccepted(p: Parser, ref: string)
    requires Ahead(p, TypeTokens(ref))
    ensures Eat(p, Type(true)) == (Leaf(Type(true)), Skip(p, 1))
    ensures ParseTContent(Skip(p, 1)) == (TypeTree(ref), Skip(p, 3))
    ensures Eat(Skip(p, 3), Type(false)) == (Leaf(Type(false)), Skip(p, 4))
  {
    AheadFour(p, Type(true), SpecObjectTypeRef(ref, true), SpecObjectTypeRef("", false), Type(false));
    SkipSkip(p, 1, 1, 2);
    SkipSkip(p, 1, 2, 3);
    SkipSkip(p, 3, 1, 4);
    EatAt(p, Type(true));
    TContentAccepted(Skip(p, 1), ref);
    EatAt(Skip(p, 3), Type(false));
  }

  /** The non-empty CONTENT alternative assembled from its six steps. */
  lemma ContentSteps(p: Parser, vc: Node, tc: Node, p1: Parser, p2: Parser, p3: Parser, p4: Parser, p5: Parser, p6: Parser)
    requires Valid(p) && p.lookahead == Values(true)
    requires Eat(p, Values(true)) == (Leaf(Values(true)), p1) && Valid(p1)
    requires ParseVContent(p1) == Returns(vc, p2) && Valid(p2)
    requires Eat(p2, Values(false)) == (Leaf(Values(false)), p3) && Valid(p3)
    requires Eat(p3, Type(true)) == (Leaf(Type(true)), p4) && Valid(p4)
    requires ParseTContent(p4) == (tc, p5) && Valid(p5)
    requires Eat(p5, Type(false)) == (Leaf(Type(false)), p6)
    ensures ParseContent(p) == Returns(
      Node(Content, [Leaf(Values(true)), vc, Leaf(Values(false)), Leaf(Type(true)), tc, Leaf(Type(false))]), p6)
  {
  }

  /** The opening VALUES tag, and where the VALUES list and what follows it
      begin. */
  lemma ValuesOpened(p: Parser, vt: seq<Token>, rest: seq<Token>)
    requires Ahead(p, [Values(true)] + (vt + rest)) && |rest| > 0
    ensures Eat(p, Values(true)) == (Leaf(Values(true)), Skip(p, 1))
    ensures Ahead(Skip(p, 1), vt) && Follower(Skip(p, 1), vt) == rest[0]
    ensures Ahead(Skip(Skip(p, 1), |vt|), rest)
  {
    EatNext(p, Values(true), vt + rest);
    AheadSplit(Skip(p, 1), vt, rest);
  }

  /** A valid state is determined by its cursor and its reports. */
  lemma SameState(q: Parser, r: Parser)
    requires Valid(q) && Valid(r) && q.lexer == r.lexer && q.diagnostics == r.diagnostics
    ensures q == r
  {
  }

  /** The VALUES part of the non-empty CONTENT alternative on its tokens,
      where the VALUES list takes `n` tokens. */
  lemma BodyValuesAccepted(p: Parser, vs: seq<AttributeValue>, n: nat, tt: seq<Token>)
    requires n == |ValuesTokens(vs)| && Ahead(p, [Values(true)] + (ValuesTokens(vs) + ([Values(false)] + tt)))
    ensures p.lexer.counter + n + 2 + |tt| <= |p.lexer.tokens|
    ensures Eat(p, Values(true)) == (Leaf(Values(true)), Skip(p, 1))
    ensures ParseVContent(Skip(p, 1)) == Returns(ValuesTree(vs), Skip(p, n + 1))
    ensures Ahead(Skip(p, n + 1), [Values(false)] + tt)
  {
    var vt := ValuesTokens(vs);
    ValuesOpened(p, vt, [Values(false)] + tt);
    ValuesAccepted(Skip(p, 1), vs);
    SkipSkip(p, 1, n, n + 1);
  }

  /** The TYPE part of the non-empty CONTENT alternative on its tokens,
      after the opening VALUES tag and `n` tokens of VALUES list. */
  lemma BodyTypeAccepted(p: Parser, n: nat, ref: string)
    requires Valid(p) && p.lexer.counter + n + 1 <= |p.lexer.tokens|
    requires Ahead(Skip(p, n + 1), [Values(false)] + TypeTokens(ref))
    ensures p.lexer.counter + n + 6 <= |p.lexer.tokens|
    ensures Eat(Skip(p, n + 1), Values(false)) == (Leaf(Values(false)), Skip(p, n + 2))
    ensures Eat(Skip(p, n + 2), Type(true)) == (Leaf(Type(true)), Skip(p, n + 3))
    ensures ParseTContent(Skip(p, n + 3)) == (TypeTree(ref), Skip(p, n + 5))
    ensures Eat(Skip(p, n + 5), Type(false)) == (Leaf(Type(false)), Skip(p, n + 6))
  {
    var q := Skip(p, n + 1);
    EatNext(q, Values(false), TypeTokens(ref));
    TypeAccepted(Skip(q, 1), ref);
    SkipSkip(p, n + 1, 1, n + 2);
    SkipSkip(p, n + 2, 1, n + 3);
    SkipSkip(p, n + 2, 3, n + 5);
    SkipSkip(p, n + 2, 4, n + 6);
  }

  /** The six steps of the non-empty CONTENT alternative, with the states
      named by how far they are from `p`; the VALUES list takes `n` tokens. */
  predicate BodySteps(p: Parser, vs: seq<AttributeValue>, ref: string, n: nat) {
    && Valid(p) && p.lookahead == Values(true) && p.lexer.counter + n + 6 <= |p.lexer.tokens|
    && Eat(p, Values(true)) == (Leaf(Values(true)), Skip(p, 1))
    && ParseVContent(Skip(p, 1)) == Returns(ValuesTree(vs), Skip(p, n + 1))
    && Eat(Skip(p, n + 1), Values(false)) == (Leaf(Values(false)), Skip(p, n + 2))
    && Eat(Skip(p, n + 2), Type(true)) == (Leaf(Type(true)), Skip(p, n + 3))
    && ParseTContent(Skip(p, n + 3)) == (TypeTree(ref), Skip(p, n + 5))
    && Eat(Skip(p, n + 5), Type(false)) == (Leaf(Type(false)), Skip(p, n + 6))
  }

  /** The non-empty CONTENT alternative assembled from its six steps. */
  lemma ContentStepsAt(p: Parser, vs: seq<AttributeValue>, ref: string, n: nat)
    requires BodySteps(p, vs, ref, n)
    ensures ParseContent(p) == Returns(
      Node(Content, [Leaf(Values(true)), ValuesTree(vs), Leaf(Values(false)),
                     Leaf(Type(true)), TypeTree(ref), Leaf(Type(false))]),
      Skip(p, n + 6))
  {
  }

  /** The six steps of the non-empty CONTENT alternative on its derived
      tokens. */
  lemma BodyAhead(p: Parser, vs: seq<AttributeValue>, ref: string, n: nat)
    requires Ahead(p, [Values(true)] + (ValuesTokens(vs) + ([Values(false)] + TypeTokens(ref))))
    requires n == |ValuesTokens(vs)|
    ensures BodySteps(p, vs, ref, n)
  {
    BodyValuesAccepted(p, vs, n, TypeTokens(ref));
    BodyTypeAccepted(p, n, ref);
    AheadHead(p, Values(true), ValuesTokens(vs) + ([Values(false)] + TypeTokens(ref)));
  }

  /** The non-empty CONTENT alternative on its derived tokens. */
  lemma BodyAccepted(p: Parser, b: Body)
    requires Ahead(p, [Values(true)] + (ValuesTokens(b.values) + ([Values(false)] + TypeTokens(b.typeRef))))
    ensures ParseContent(p) == Returns(
      Node(Content, [Leaf(Values(true)), ValuesTree(b.values), Leaf(Values(false)),
                     Leaf(Type(true)), TypeTree(b.typeRef), Leaf(Type(false))]),
      Skip(p, |ValuesTokens(b.values)| + 6))
  {
    var n := |ValuesTokens(b.values)|;
    BodyAhead(p, b.values, b.typeRef, n);
    ContentStepsAt(p, b.values, b.typeRef, n);
  }

  /** The tokens and the tree of a non-empty CONTENT, piece by piece. */
  lemma BodyParts(b: Body)
    ensures ContentTokens(Some(b)) == [Values(true)] + (ValuesTokens(b.values) + ([Values(false)] + TypeTokens(b.typeRef)))
    ensures |ContentTokens(Some(b))| == |ValuesTokens(b.values)| + 6
    ensures ContentTree(Some(b)) ==
      Node(Content, [Leaf(Values(true)), ValuesTree(b.values), Leaf(Values(false)),
                     Leaf(Type(true)), TypeTree(b.typeRef), Leaf(Type(false))])
  {
  }

  lemma EmptyContentAccepted(p: Parser)
    requires Valid(p) && p.lookahead == SpecObject("", false)
    ensures ParseContent(p) == Returns(ContentTree(None), p)
  {
  }

  lemma BodyContentAccepted(p: Parser, b: Body)
    requires Ahead(p, ContentTokens(Some(b)))
    ensures ParseContent(p) == Returns(ContentTree(Some(b)), Skip(p, |ContentTokens(Some(b))|))
  {
    BodyParts(b);
    BodyAccepted(p, b);
  }

  /** CONTENT, empty or not, followed by a closing SPEC-OBJECT tag. */
  lemma ContentAccepted(p: Parser, c: Option<Body>)
    requires Ahead(p, ContentTokens(c)) && Follower(p, ContentTokens(c)) == SpecObject("", false)
    ensures ParseContent(p) == Returns(ContentTree(c), Skip(p, |ContentTokens(c)|))
  {
    if c.None? {
      assert Skip(p, 0) == p;
      EmptyContentAccepted(p);
    } else {
      BodyContentAccepted(p, c.value);
    }
  }

  /** Parsing a derived token sequence, followed by anything at all, yields
      exactly the derivation tree, reports nothing, and stops right after the
      closing SPEC-OBJECT tag (or on it, when it is the last token). */
  lemma DocumentAccepted(d: Document, rest: seq<Token>)
    ensures var ts := DocumentTokens(d) + rest;
      var r := Parse(ts);
      && r.Returns?
      && r.node == DocumentTree(d)
      && r.state.diagnostics == []
      && r.state.lexer.counter == (if rest == [] then |ts| else |DocumentTokens(d)| + 1)
  {
    var ts := DocumentTokens(d) + rest;
    var o := SpecObject(d.identifier, true);
    var ct := ContentTokens(d.content);
    var p := Init(ts);
    assert ts == ([o] + ct) + ([SpecObject("", false)] + rest);
    AheadOfStart(p, [o] + ct, [SpecObject("", false)] + rest);
    EatNext(p, o, ct);
    var p1 := Skip(p, 1);
    ContentAccepted(p1, d.content);
    var p2 := Skip(p1, |ct|);
    SkipSkip(p, 1, |ct|, 1 + |ct|);
    assert p2.lookahead == SpecObject("", false);
    var (c3, p3) := Eat(p2, SpecObject("", false));
    assert ParseS(p) == Returns(Node(Root, [Leaf(o), ContentTree(d.content), c3]), p3);
  }

  // ---- what the derivation tree holds ----

  lemma FrontierOfCons(x: Node, xs: seq<Node>)
    ensures FrontierOf([x] + xs) == Frontier(x) + FrontierOf(xs)
  {
    assert ([x] + xs)[0] == x;
    assert ([x] + xs)[1..] == xs;
  }

  lemma {:induction false} FrontierOfAppend(xs: seq<Node>, ys: seq<Node>)
    ensures FrontierOf(xs + ys) == FrontierOf(xs) + FrontierOf(ys)
    decreases |xs|
  {
    if xs == [] {
      assert xs + ys == ys;
    } else {
      calc {
        FrontierOf(xs + ys);
        { assert xs + ys == [xs[0]] + (xs[1..] + ys); FrontierOfCons(xs[0], xs[1..] + ys); }
        Frontier(xs[0]) + FrontierOf(xs[1..] + ys);
        { FrontierOfAppend(xs[1..], ys); }
        Frontier(xs[0]) + (FrontierOf(xs[1..]) + FrontierOf(ys));
        { assert xs == [xs[0]] + xs[1..]; FrontierOfCons(xs[0], xs[1..]); }
        FrontierOf(xs) + FrontierOf(ys);
      }
    }
  }

  lemma FrontierOf2(a: Node, b: Node)
    ensures FrontierOf([a, b]) == Frontier(a) + Frontier(b)
  {
    FrontierOfCons(b, []);
    assert [b] == [b] + [];
    FrontierOfCons(a, [b]);
    assert [a, b] == [a] + [b];
  }

  lemma FrontierOf3(a: Node, b: Node, c: Node)
    ensures FrontierOf([a, b, c]) == Frontier(a) + Frontier(b) + Frontier(c)
  {
    FrontierOf2(b, c);
    FrontierOfCons(a, [b, c]);
    assert [a, b, c] == [a] + [b, c];
  }

  lemma DefinitionFrontier(ref: string)
    ensures Frontier(DefinitionTree(ref)) == DefinitionTokens(ref)
  {
    var a1, a2 := Leaf(AttributeDefinitionStringRef(ref, true)), Leaf(AttributeDefinitionStringRef("", false));
    var dc := Node(DContent, [a1, a2]);
    FrontierOf2(a1, a2);
    assert Frontier(dc) == [a1.value, a2.value];
    FrontierOf3(Leaf(Definition(true)), dc, Leaf(Definition(false)));
  }

  /** The leaves of a VCONTENT chain, read left to right, are exactly the
      tokens of its VALUES list. */
  lemma {:induction false} ValuesFrontier(vs: seq<AttributeValue>)
    ensures Frontier(ValuesTree(vs)) == ValuesTokens(vs)
    decreases |vs|
  {
    if vs != [] {
      var a := vs[0];
      var c1 := Leaf(AttributeValueString(a.theValue, true));
      var c2 := DefinitionTree(a.definitionRef);
      var c3 := Leaf(AttributeValueString("", false));
      var c4 := ValuesTree(vs[1..]);
      ValuesFrontier(vs[1..]);
      DefinitionFrontier(a.definitionRef);
      assert [c1, c2, c3, c4] == [c1, c2, c3] + [c4];
      FrontierOfAppend([c1, c2, c3], [c4]);
      FrontierOf3(c1, c2, c3);
      FrontierOfCons(c4, []);
      assert [c4] == [c4] + [];
      assert Frontier(ValuesTree(vs)) == [c1.value] + DefinitionTokens(a.definitionRef) + [c3.value] + ValuesTokens(vs[1..]);
    }
  }

  /** The VCONTENT chain has one link per ATTRIBUTE-VALUE-STRING element. */
  lemma {:induction false} ValuesChainLength(vs: seq<AttributeValue>)
    ensures ChainLength(ValuesTree(vs)) == |vs|
    decreases |vs|
  {
    if vs != [] {
      ValuesChainLength(vs[1..]);
    }
  }

  lemma ValuesElementFrontier(vs: seq<AttributeValue>)
    ensures FrontierOf([Leaf(Values(true)), ValuesTree(vs), Leaf(Values(false))])
            == [Values(true)] + ValuesTokens(vs) + [Values(false)]
  {
    FrontierOf3(Leaf(Values(true)), ValuesTree(vs), Leaf(Values(false)));
    ValuesFrontier(vs);
  }

  lemma TypeElementFrontier(ref: string)
    ensures FrontierOf([Leaf(Type(true)), TypeTree(ref), Leaf(Type(false))]) == TypeTokens(ref)
  {
    FrontierOf3(Leaf(Type(true)), TypeTree(ref), Leaf(Type(false)));
    FrontierOf2(Leaf(SpecObjectTypeRef(ref, true)), Leaf(SpecObjectTypeRef("", false)));
  }

  lemma BodyFrontier(b: Body)
    ensures Frontier(ContentTree(Some(b))) == ContentTokens(Some(b))
  {
    var c0, c1, c2 := Leaf(Values(true)), ValuesTree(b.values), Leaf(Values(false));
    var c3, c4, c5 := Leaf(Type(true)), TypeTree(b.typeRef), Leaf(Type(false));
    assert [c0, c1, c2, c3, c4, c5] == [c0, c1, c2] + [c3, c4, c5];
    FrontierOfAppend([c0, c1, c2], [c3, c4, c5]);
    ValuesElementFrontier(b.values);
    TypeElementFrontier(b.typeRef);
  }

  lemma DocumentFrontier(d: Document)
    ensures Frontier(DocumentTree(d)) == DocumentTokens(d)
  {
    FrontierOf3(Leaf(SpecObject(d.identifier, true)), ContentTree(d.content), Leaf(SpecObject("", false)));
    if d.content.Some? {
      BodyFrontier(d.content.value);
    }
  }

  /** What the derivation tree records about the document: its leaves read
      back the tokens, and its VCONTENT chain has one link per
      ATTRIBUTE-VALUE-STRING element. */
  lemma DocumentTreeContents(d: Document)
    ensures DocumentTree(d).value == Root && |DocumentTree(d).children| == 3
    ensures Frontier(DocumentTree(d)) == DocumentTokens(d)
    ensures d.content.Some? ==>
              |DocumentTree(d).children[1].children| == 6
              && ChainLength(DocumentTree(d).children[1].children[1]) == |d.content.value.values|
  {
    DocumentFrontier(d);
    if d.content.Some? {
      ValuesChainLength(d.content.value.values);
    }
  }

  /** For a derived input: a ROOT tree whose non-ERROR leaves read back the
      input up to the closing SPEC-OBJECT tag, no diagnostics, and one
      VCONTENT link per ATTRIBUTE-VALUE-STRING element. */
  lemma WellFormedInputRoundTrip(d: Document, rest: seq<Token>)
    ensures var r := Parse(DocumentTokens(d) + rest);
      && r.Returns?
      && r.node.value == Root
      && Frontier(r.node) == DocumentTokens(d)
      && r.state.diagnostics == []
      && (d.content.Some? ==>
            |r.node.children| == 3 && |r.node.children[1].children| == 6
            && ChainLength(r.node.children[1].children[1]) == |d.content.value.values|)
  {
    DocumentAccepted(d, rest);
    DocumentTreeContents(d);
  }
}

=== FILE: lexer.dfy ===
/** The read-only cursor over the caller's token sequence. */
module TokenStream {
  import opened Tokens

  datatype Lexer = Lexer(tokens: seq<Token>, counter: nat)

  /** The tokens not read yet. */
  function Remaining(l: Lexer): seq<Token> {
    if l.counter <= |l.tokens| then l.tokens[l.counter..] else []
  }

  /** A new lexer has the whole input still to read. */
  function NewLexer(tokens: seq<Token>): (l: Lexer)
    ensures l.tokens == tokens && Remaining(l) == tokens
  {
    Lexer(tokens, 0)
  }

  /** There is a token left to read. */
  predicate HasNextToken(l: Lexer) {
    l.counter < |l.tokens|
  }

  /** Reads the token under the cursor and moves past it; reading past the
      end is a trap in the source, so it is a precondition here. */
  function GetNextToken(l: Lexer): (Token, Lexer)
    requires HasNextToken(l)
  {
    (l.tokens[l.counter], l.(counter := l.counter + 1))
  }

  /** A token is left exactly when some input remains unread. */
  lemma NextTokenExactlyWhenInputLeft(l: Lexer)
    ensures HasNextToken(l) <==> Remaining(l) != []
  {
  }

  /** Reading a token takes the head of what remained and leaves its tail. */
  lemma NextTokenTakesHead(l: Lexer)
    requires HasNextToken(l)
    ensures GetNextToken(l).1.tokens == l.tokens
    ensures Remaining(l) == [GetNextToken(l).0] + Remaining(GetNextToken(l).1)
  {
  }

  /** Reading a new lexer while a token is left yields the whole input, in
      order, and leaves nothing to read. */
  method Drain(tokens: seq<Token>) returns (read: seq<Token>)
    ensures read == tokens
  {
    var l := NewLexer(tokens);
    read := [];
    while HasNextToken(l)
      invariant l.tokens == tokens
      invariant read + Remaining(l) == tokens
      decreases |Remaining(l)|
    {
      NextTokenTakesHead(l);
      var (t, l') := GetNextToken(l);
      read, l := read + [t], l';
    }
    NextTokenExactlyWhenInputLeft(l);
  }

  /** Reading `n` tokens in a row yields the next `n` tokens of the input,
      in order, and leaves the cursor `n` further on. */
  function ReadTokens(l: Lexer, n: nat): (r: (seq<Token>, Lexer))
    requires l.counter + n <= |l.tokens|
    ensures r.0 == l.tokens[l.counter..l.counter + n]
    ensures r.1.tokens == l.tokens && r.1.counter == l.counter + n
    decreases n
  {
    if n == 0 then
      ([], l)
    else
      var (t, l') := GetNextToken(l);
      var (ts, l'') := ReadTokens(l', n - 1);
      ([t] + ts, l'')
  }
}

=== FILE: parser.dfy ===
/** The LL(1) recursive-descent parser. The parser's mutable state (the
    lexer's counter and the buffered lookahead) is threaded through pure
    functions; the console diagnostics become a returned list. */
module Parsing {
  import opened Tokens
  import opened Ast
  import opened TokenStream

  /** What the parser reports instead of printing it. */
  datatype Diagnostic =
      /** `eat` expected one terminal and found another */
    | Mismatch(expected: Token, found: Token)
      /** the lookahead selects no alternative of the production whose
          node label is `production` (ROOT for the start symbol) */
    | NoAlternative(production: Token, found: Token)

  datatype Parser = Parser(lexer: Lexer, lookahead: Token, diagnostics: seq<Diagnostic>)

  /** A production either returns a tree and the state after it, or, in the
      one case where the source recurses without progress, never returns. */
  datatype Outcome = Returns(node: Node, state: Parser) | Diverges

  /** The lookahead is always the token just read: the counter is at least 1
      and stays within the input. */
  predicate Valid(p: Parser) {
    1 <= p.lexer.counter <= |p.lexer.tokens| && p.lookahead == p.lexer.tokens[p.lexer.counter - 1]
  }

  /** `q` is a later state of the same run as `p`: same input, a counter that
      has not gone back, and diagnostics only added to. */
  predicate Follows(p: Parser, q: Parser) {
    q.lexer.tokens == p.lexer.tokens && p.lexer.counter <= q.lexer.counter && p.diagnostics <= q.diagnostics
  }

  predicate Continues(p: Parser, r: Outcome) {
    r.Returns? ==> Valid(r.state) && Follows(p, r.state)
  }

  predicate Exhausted(p: Parser) {
    p.lexer.counter == |p.lexer.tokens|
  }

  /** The only inputs on which the source can recurse forever. */
  predicate EndsInOpenAttributeValue(tokens: seq<Token>) {
    |tokens| > 0 && tokens[|tokens| - 1].AttributeValueString? && tokens[|tokens| - 1].open
  }

  /** Construction reads the first token; on an empty input the source traps. */
  function Init(tokens: seq<Token>): (p: Parser)
    requires |tokens| > 0
    ensures Valid(p) && p.lexer.tokens == tokens && p.lexer.counter == 1
    ensures p.lookahead == tokens[0] && p.diagnostics == []
  {
    var (t, l) := GetNextToken(NewLexer(tokens));
    Parser(l, t, [])
  }

  /** Moves the lookahead one token on, or does nothing at the end. */
  function Advance(p: Parser): (q: Parser)
    requires Valid(p)
    ensures Valid(q) && Follows(p, q) && q.diagnostics == p.diagnostics
    ensures !Exhausted(p) ==> q.lexer.counter == p.lexer.counter + 1
    ensures Exhausted(p) ==> q == p
  {
    if HasNextToken(p.lexer) then
      var (t, l) := GetNextToken(p.lexer);
      p.(lexer := l, lookahead := t)
    else
      p
  }

  /** Matches one terminal. The leaf is always labelled with the expected
      token; on a mismatch the state is unchanged apart from the report. */
  function Eat(p: Parser, e: Token): (r: (Node, Parser))
    requires Valid(p)
    ensures r.0 == Leaf(e)
    ensures Valid(r.1) && Follows(p, r.1)
    ensures r.1.lexer.counter == p.lexer.counter + 1 <==> TokensAreEqual(e, p.lookahead) && !Exhausted(p)
    ensures TokensAreEqual(e, p.lookahead) ==> r.1.diagnostics == p.diagnostics
    ensures TokensAreEqual(e, p.lookahead) && Exhausted(p) ==> r.1 == p
    ensures !TokensAreEqual(e, p.lookahead) ==> r.1 == p.(diagnostics := p.diagnostics + [Mismatch(e, p.lookahead)])
  {
    if TokensAreEqual(e, p.lookahead) then
      (Leaf(e), Advance(p))
    else
      (Leaf(e), p.(diagnostics := p.diagnostics + [Mismatch(e, p.lookahead)]))
  }

  /** The state after a production's default branch: only the report added. */
  function Reject(p: Parser, production: Token): Parser {
    p.(diagnostics := p.diagnostics + [NoAlternative(production, p.lookahead)])
  }

  function Parse(tokens: seq<Token>): (r: Outcome)
    requires |tokens| > 0
    ensures r.Returns? ==> Valid(r.state) && r.state.lexer.tokens == tokens
  {
    ParseS(Init(tokens))
  }

  // S -> <spec_object> CONTENT </spec_object>
  function ParseS(p: Parser): (r: Outcome)
    requires Valid(p)
    ensures Continues(p, r)
  {
    if p.lookahead.SpecObject? && p.lookahead.open then
      var (c1, p1) := Eat(p, SpecObject(p.lookahead.value, true));
      match ParseContent(p1)
      case Diverges => Diverges
      case Returns(c2, p2) =>
        var (c3, p3) := Eat(p2, SpecObject("", false));
        Returns(Node(Root, [c1, c2, c3]), p3)
    else
      Returns(ErrorLeaf, Reject(p, Root))
  }

  // CONTENT -> <values> VCONTENT </values> <type> TCONTENT </type> | eps
  function ParseContent(p: Parser): (r: Outcome)
    requires Valid(p)
    ensures Continues(p, r)
  {
    if p.lookahead == Values(true) then
      var (c1, p1) := Eat(p, Values(true));
      match ParseVContent(p1)
      case Diverges => Diverges
      case Returns(c2, p2) =>
        var (c3, p3) := Eat(p2, Values(false));
        var (c4, p4) := Eat(p3, Type(true));
        var (c5, p5) := ParseTContent(p4);
        var (c6, p6) := Eat(p5, Type(false));
        Returns(Node(Content, [c1, c2, c3, c4, c5, c6]), p6)
    else if p.lookahead.SpecObject? && !p.lookahead.open then
      Returns(ErrorLeaf, p)
    else
      Returns(ErrorLeaf, Reject(p, Content))
  }

  /** The first three children of the non-empty VCONTENT alternative and the
      state in which its recursive call starts. The counter moves on unless
      the input was already used up when the opening tag was eaten. */
  function VContentHead(p: Parser): (r: (Node, Node, Node, Parser))
    requires Valid(p) && p.lookahead.AttributeValueString? && p.lookahead.open
    ensures Valid(r.3) && Follows(p, r.3)
    ensures !Exhausted(p) ==> r.3.lexer.counter > p.lexer.counter
  {
    var (c1, p1) := Eat(p, AttributeValueString(p.lookahead.value, true));
    var (c2, p2) := ParseAvsContent(p1);
    var (c3, p3) := Eat(p2, AttributeValueString("", false));
    (c1, c2, c3, p3)
  }

  // VCONTENT -> <attribute-value-string> AVSCONTENT </attribute-value-string> VCONTENT | eps
  /* When the lookahead is the input's last token and an opening tag, the
     source's recursion starts again from the same counter and lookahead,
     with two more reports, and never returns; that case is `Diverges`. */
  function ParseVContent(p: Parser): (r: Outcome)
    requires Valid(p)
    ensures Continues(p, r)
    decreases |p.lexer.tokens| - p.lexer.counter
  {
    if p.lookahead.AttributeValueString? && p.lookahead.open then
      if Exhausted(p) then
        Diverges
      else
        var (c1, c2, c3, q) := VContentHead(p);
        match ParseVContent(q)
        case Diverges => Diverges
        case Returns(c4, q') => Returns(Node(VContent, [c1, c2, c3, c4]), q')
    else if p.lookahead == Values(false) then
      Returns(ErrorLeaf, p)
    else
      Returns(ErrorLeaf, Reject(p, VContent))
  }

  // TCONTENT -> <spec-object-type-ref> </spec-object-type-ref>
  function ParseTContent(p: Parser): (r: (Node, Parser))
    requires Valid(p)
    ensures Valid(r.1) && Follows(p, r.1)
  {
    if p.lookahead.SpecObjectTypeRef? && p.lookahead.open then
      var (c1, p1) := Eat(p, SpecObjectTypeRef(p.lookahead.value, true));
      var (c2, p2) := Eat(p1, SpecObjectTypeRef("", false));
      (Node(TContent, [c1, c2]), p2)
    else
      (ErrorLeaf, Reject(p, TContent))
  }

  // AVSCONTENT -> <definition> DCONTENT </definition>
  function ParseAvsContent(p: Parser): (r: (Node, Parser))
    requires Valid(p)
    ensures Valid(r.1) && Follows(p, r.1)
  {
    if p.lookahead == Definition(true) then
      var (c1, p1) := Eat(p, Definition(true));
      var (c2, p2) := ParseDContent(p1);
      var (c3, p3) := Eat(p2, Definition(false));
      (Node(AvsContent, [c1, c2, c3]), p3)
    else
      (ErrorLeaf, Reject(p, AvsContent))
  }

  // DCONTENT -> <attribute-definition-string-ref> </attribute-definition-string-ref>
  function ParseDContent(p: Parser): (r: (Node, Parser))
    requires Valid(p)
    ensures Valid(r.1) && Follows(p, r.1)
  {
    if p.lookahead.AttributeDefinitionStringRef? && p.lookahead.open then
      var (c1, p1) := Eat(p, AttributeDefinitionStringRef(p.lookahead.value, true));
      var (c2, p2) := Eat(p1, AttributeDefinitionStringRef("", false));
      (Node(DContent, [c1, c2]), p2)
    else
      (ErrorLeaf, Reject(p, DContent))
  }
}

=== FILE: properties.dfy ===
/** What each production returns: the shape of its tree, the ERROR leaf
    when the lookahead selects none of its alternatives, and the only
    situation in which it fails to return at all. */
module ParserProperties {
  import opened Tokens
  import opened Ast
  import opened Parsing

  lemma DContentResult(p: Parser)
    requires Valid(p)
    ensures var (n, q) := ParseDContent(p);
      && DContentShaped(n)
      && (p.lookahead.AttributeDefinitionStringRef? && p.lookahead.open ==>
            n.value == DContent && n.children == [Leaf(p.lookahead), Leaf(AttributeDefinitionStringRef("", false))])
      && (!(p.lookahead.AttributeDefinitionStringRef? && p.lookahead.open) ==>
            n == ErrorLeaf && q == Reject(p, DContent))
  {
  }

  lemma TContentResult(p: Parser)
    requires Valid(p)
    ensures var (n, q) := ParseTContent(p);
      && TContentShaped(n)
      && (p.lookahead.SpecObjectTypeRef? && p.lookahead.open ==>
            n.value == TContent && n.children == [Leaf(p.lookahead), Leaf(SpecObjectTypeRef("", false))])
      && (!(p.lookahead.SpecObjectTypeRef? && p.lookahead.open) ==>
            n == ErrorLeaf && q == Reject(p, TContent))
  {
  }

  lemma AvsContentResult(p: Parser)
    requires Valid(p)
    ensures var (n, q) := ParseAvsContent(p);
      && AvsContentShaped(n)
      && (p.lookahead == Definition(true) ==>
            n.value == AvsContent && |n.children| == 3 && n.children[0] == Leaf(Definition(true))
            && n.children[2] == Leaf(Definition(false)))
      && (p.lookahead != Definition(true) ==> n == ErrorLeaf && q == Reject(p, AvsContent))
  {
    if p.lookahead == Definition(true) {
      var (_, p1) := Eat(p, Definition(true));
      DContentResult(p1);
    }
  }

  lemma VContentHeadResult(p: Parser)
    requires Valid(p) && p.lookahead.AttributeValueString? && p.lookahead.open
    ensures var (c1, c2, c3, _) := VContentHead(p);
      c1 == Leaf(p.lookahead) && AvsContentShaped(c2) && c3 == Leaf(AttributeValueString("", false))
  {
    var (_, p1) := Eat(p, AttributeValueString(p.lookahead.value, true));
    AvsContentResult(p1);
  }

  /** Once the input is used up, the head of the non-empty VCONTENT
      alternative leaves the counter and the lookahead exactly as it found
      them (only two reports are added), so the recursive call that follows
      starts from the same cursor again, and so on forever. */
  lemma ExhaustedHeadRepeats(p: Parser)
    requires Valid(p) && p.lookahead.AttributeValueString? && p.lookahead.open && Exhausted(p)
    ensures var q := VContentHead(p).3;
      && q.lexer == p.lexer && q.lookahead == p.lookahead
      && q.diagnostics == p.diagnostics + [NoAlternative(AvsContent, p.lookahead),
                                           Mismatch(AttributeValueString("", false), p.lookahead)]
  {
    var (_, p1) := Eat(p, AttributeValueString(p.lookahead.value, true));
    assert p1 == p;
    AvsContentResult(p1);
  }

  /** Every VCONTENT tree is a chain of well-formed links ending in the
      ERROR leaf, and the production fails to return only when the input
      ends with an opening ATTRIBUTE-VALUE-STRING tag. */
  lemma {:induction false} VContentResult(p: Parser)
    requires Valid(p)
    ensures ParseVContent(p).Returns? ==> VContentShaped(ParseVContent(p).node)
    ensures ParseVContent(p).Diverges? ==> EndsInOpenAttributeValue(p.lexer.tokens)
    decreases |p.lexer.tokens| - p.lexer.counter
  {
    if p.lookahead.AttributeValueString? && p.lookahead.open && !Exhausted(p) {
      var (c1, c2, c3, q) := VContentHead(p);
      VContentHeadResult(p);
      VContentResult(q);
      if ParseVContent(q).Returns? {
        VContentNodeShaped(c1, c2, c3, ParseVContent(q).node);
      }
    }
  }

  lemma VContentNodeShaped(c1: Node, c2: Node, c3: Node, c4: Node)
    requires c1.children == [] && c1.value.AttributeValueString? && c1.value.open
    requires AvsContentShaped(c2) && c3 == Leaf(AttributeValueString("", false)) && VContentShaped(c4)
    ensures VContentShaped(Node(VContent, [c1, c2, c3, c4]))
  {
  }

  /** The non-empty alternative yields a four-child VCONTENT link that starts
      with the opening tag found; the empty alternative on a closing VALUES
      tag and the default branch on anything else both yield the ERROR leaf,
      and only the default branch reports. */
  lemma VContentAlternatives(p: Parser)
    requires Valid(p)
    ensures p.lookahead.AttributeValueString? && p.lookahead.open && ParseVContent(p).Returns? ==>
              var n := ParseVContent(p).node;
              n.value == VContent && |n.children| == 4 && n.children[0] == Leaf(p.lookahead)
    ensures p.lookahead == Values(false) ==> ParseVContent(p) == Returns(ErrorLeaf, p)
    ensures !(p.lookahead.AttributeValueString? && p.lookahead.open) && p.lookahead != Values(false) ==>
              ParseVContent(p) == Returns(ErrorLeaf, Reject(p, VContent))
  {
    if p.lookahead.AttributeValueString? && p.lookahead.open && !Exhausted(p) {
      VContentHeadResult(p);
    }
  }

  /** The non-empty alternative: a six-child CONTENT node, or no result if
      its VCONTENT fails to return. */
  lemma ContentValuesResult(p: Parser)
    requires Valid(p) && p.lookahead == Values(true)
    ensures ParseContent(p).Returns? ==>
              var n := ParseContent(p).node;
              ContentShaped(n) && n.value == Content && |n.children| == 6 && n.children[0] == Leaf(Values(true))
    ensures ParseContent(p).Diverges? ==> EndsInOpenAttributeValue(p.lexer.tokens)
  {
    var (c1, p1) := Eat(p, Values(true));
    VContentResult(p1);
    match ParseVContent(p1)
    case Diverges =>
    case Returns(c2, p2) =>
      var (c3, p3) := Eat(p2, Values(false));
      var (c4, p4) := Eat(p3, Type(true));
      var (c5, p5) := ParseTContent(p4);
      var (c6, p6) := Eat(p5, Type(false));
      TContentResult(p4);
      ContentNodeShaped(c2, c5);
      assert ParseContent(p) == Returns(Node(Content, [c1, c2, c3, c4, c5, c6]), p6);
  }

  lemma ContentNodeShaped(vc: Node, tc: Node)
    requires VContentShaped(vc) && TContentShaped(tc)
    ensures ContentShaped(Node(Content, [Leaf(Values(true)), vc, Leaf(Values(false)), Leaf(Type(true)), tc, Leaf(Type(false))]))
  {
  }

  lemma ContentResult(p: Parser)
    requires Valid(p)
    ensures ParseContent(p).Returns? ==> ContentShaped(ParseContent(p).node)
    ensures ParseContent(p).Diverges? ==> EndsInOpenAttributeValue(p.lexer.tokens)
    ensures p.lookahead.SpecObject? && !p.lookahead.open ==> ParseContent(p) == Returns(ErrorLeaf, p)
    ensures p.lookahead != Values(true) && !(p.lookahead.SpecObject? && !p.lookahead.open) ==>
              ParseContent(p) == Returns(ErrorLeaf, Reject(p, Content))
  {
    if p.lookahead == Values(true) {
      ContentValuesResult(p);
    }
  }

  lemma SResult(p: Parser)
    requires Valid(p)
    ensures ParseS(p).Returns? ==> RootShaped(ParseS(p).node)
    ensures ParseS(p).Diverges? ==> EndsInOpenAttributeValue(p.lexer.tokens)
  {
    if p.lookahead.SpecObject? && p.lookahead.open {
      var (_, p1) := Eat(p, SpecObject(p.lookahead.value, true));
      ContentResult(p1);
    }
  }

  /** An opening SPEC-OBJECT tag selects S and becomes the first leaf of a
      three-child ROOT node; anything else is the default branch. */
  lemma SAlternatives(p: Parser)
    requires Valid(p)
    ensures p.lookahead.SpecObject? && p.lookahead.open && ParseS(p).Returns? ==>
              var n := ParseS(p).node;
              n.value == Root && |n.children| == 3 && n.children[0] == Leaf(p.lookahead)
    ensures !(p.lookahead.SpecObject? && p.lookahead.open) ==> ParseS(p) == Returns(ErrorLeaf, Reject(p, Root))
  {
  }

  /** The whole parse: a tree of the grammar's shape (ERROR leaves in place
      of whatever failed), a start that does not select S reported as such,
      and no result only for inputs ending in an opening
      ATTRIBUTE-VALUE-STRING tag. */
  lemma ParseResult(tokens: seq<Token>)
    requires |tokens| > 0
    ensures var r := Parse(tokens);
      && (r.Returns? ==> RootShaped(r.node))
      && (r.Diverges? ==> EndsInOpenAttributeValue(tokens))
      && (!(tokens[0].SpecObject? && tokens[0].open) ==>
            r == Returns(ErrorLeaf, Init(tokens).(diagnostics := [NoAlternative(Root, tokens[0])])))
  {
    SResult(Init(tokens));
    SAlternatives(Init(tokens));
  }

  /** The termination half of ParseResult on its own, in the form a caller
      uses it: an input that does not end in an opening
      ATTRIBUTE-VALUE-STRING tag always yields a tree. */
  lemma ParseReturnsUnlessEndsInOpenAttributeValue(tokens: seq<Token>)
    requires |tokens| > 0 && !EndsInOpenAttributeValue(tokens)
    ensures Parse(tokens).Returns?
  {
    ParseResult(tokens);
  }
}

=== FILE: recognition.dfy ===
/** The converse of acceptance: a parse that returns without a single
    report has read the tokens of a derivation of S, and its tree is that
    derivation's tree. With `Grammar.DocumentAccepted` this makes the
    parser a recogniser: it reports nothing exactly on the inputs that
    start with the tokens of a derivation.

    The derivation is read back from the tree by the `...Of` functions, so
    no existential has to be proved by search. */
module Recognition {
  import opened Tokens
  import opened Ast
  import opened Parsing
  import opened Grammar

  function Min(a: int, b: int): int {
    if a <= b then a else b
  }

  // ---- reading a derivation back from a tree ----

  /** The reference inside an AVSCONTENT tree. */
  function DefinitionRefOf(n: Node): string {
    if |n.children| == 3 && |n.children[1].children| == 2 then Payload(n.children[1].children[0].value) else ""
  }

  /** The ATTRIBUTE-VALUE-STRING elements along a VCONTENT chain. */
  function ValuesOf(n: Node): seq<AttributeValue>
    decreases n
  {
    if n.value == VContent && |n.children| == 4 then
      [AttributeValue(Payload(n.children[0].value), DefinitionRefOf(n.children[1]))] + ValuesOf(n.children[3])
    else
      []
  }

  /** The reference inside a TCONTENT tree. */
  function TypeRefOf(n: Node): string {
    if |n.children| == 2 then Payload(n.children[0].value) else ""
  }

  function ContentOf(n: Node): Option<Body> {
    if n.value == Content && |n.children| == 6 then
      Some(Body(ValuesOf(n.children[1]), TypeRefOf(n.children[4])))
    else
      None
  }

  function DocumentOf(n: Node): Document {
    if |n.children| == 3 then Document(Payload(n.children[0].value), ContentOf(n.children[1])) else Document("", None)
  }

  lemma {:induction false} ValuesReadBack(vs: seq<AttributeValue>)
    ensures ValuesOf(ValuesTree(vs)) == vs
    decreases |vs|
  {
    if vs != [] {
      ValuesReadBack(vs[1..]);
      assert [vs[0]] + vs[1..] == vs;
    }
  }

  /** A derivation tree determines its derivation: reading it back gives
      the derivation it was built from. */
  lemma DocumentReadBack(d: Document)
    ensures DocumentOf(DocumentTree(d)) == d
  {
    if d.content.Some? {
      ValuesReadBack(d.content.value.values);
    }
  }

  // ---- reading a stretch of input with nothing reported ----

  /** From the lookahead of `p` on, the input holds `seg`, and `q` is the
      state after reading it with nothing reported: the counter has moved
      past `seg`, except that it stops at the end of the input (there the
      lookahead stays on the last token). */
  predicate Reads(p: Parser, seg: seq<Token>, q: Parser) {
    && Valid(p) && Valid(q)
    && q.lexer.tokens == p.lexer.tokens && q.diagnostics == p.diagnostics
    && p.lexer.counter - 1 + |seg| <= |p.lexer.tokens|
    && p.lexer.tokens[p.lexer.counter - 1 .. p.lexer.counter - 1 + |seg|] == seg
    && q.lexer.counter == Min(p.lexer.counter + |seg|, |p.lexer.tokens|)
  }

  lemma ReadsNothing(p: Parser)
    requires Valid(p)
    ensures Reads(p, [], p)
  {
  }

  /** A terminal eaten with nothing reported was the lookahead. */
  lemma CleanEat(p: Parser, e: Token)
    requires Valid(p) && Eat(p, e).1.diagnostics == p.diagnostics
    ensures p.lookahead == e && IsTerminal(e)
    ensures Reads(p, [e], Eat(p, e).1)
  {
    TokensAreEqualIsStructural(e, p.lookahead);
    assert p.lexer.tokens[p.lexer.counter - 1 .. p.lexer.counter] == [e];
  }

  /** Reading nothing leaves the state as it is. */
  lemma ReadsNothingStays(p: Parser, q: Parser)
    requires Reads(p, [], q)
    ensures q == p
  {
  }

  /** A reading followed by another that does not start with the token the
      first ended on did not run into the end of the input. */
  lemma ReadsBeforeMore(p: Parser, a: seq<Token>, q: Parser, b: seq<Token>, r: Parser)
    requires Reads(p, a, q) && Reads(q, b, r) && a != [] && b != [] && b[0] != a[|a| - 1]
    ensures q.lexer.counter == p.lexer.counter + |a|
  {
    var ts := p.lexer.tokens;
    assert ts[p.lexer.counter - 1 .. p.lexer.counter - 1 + |a|][|a| - 1] == a[|a| - 1];
    assert ts[q.lexer.counter - 1 .. q.lexer.counter - 1 + |b|][0] == b[0];
  }

  lemma SliceJoin(ts: seq<Token>, i: nat, j: nat, k: nat)
    requires i <= j <= k <= |ts|
    ensures ts[i .. k] == ts[i .. j] + ts[j .. k]
  {
  }

  /** Two readings in a row make one, provided the second does not start
      with the token the first ended on: the lookahead that stays on the
      last token at the end of the input could not be read twice. */
  lemma ReadsThen(p: Parser, a: seq<Token>, q: Parser, b: seq<Token>, r: Parser)
    requires Reads(p, a, q) && Reads(q, b, r)
    requires a == [] || b == [] || b[0] != a[|a| - 1]
    ensures Reads(p, a + b, r)
  {
    if a == [] {
      ReadsNothingStays(p, q);
      assert a + b == b;
    } else if b == [] {
      ReadsNothingStays(q, r);
      assert a + b == a;
    } else {
      ReadsBeforeMore(p, a, q, b, r);
      var i := p.lexer.counter - 1;
      SliceJoin(p.lexer.tokens, i, i + |a|, i + |a| + |b|);
      assert |a + b| == |a| + |b|;
      assert p.lexer.tokens[i .. i + |a + b|] == a + b;
      assert r.lexer.counter == Min(p.lexer.counter + |a + b|, |p.lexer.tokens|);
    }
  }

  /** An opening tag, a stretch, and a closing tag read in a row. */
  lemma ReadsThree(p: Parser, a: seq<Token>, q: Parser, b: seq<Token>, r: Parser, c: seq<Token>, s: Parser)
    requires Reads(p, a, q) && Reads(q, b, r) && Reads(r, c, s)
    requires a != [] && c != []
    requires b == [] || b[0] != a[|a| - 1]
    requires c[0] != (a + b)[|a + b| - 1]
    ensures Reads(p, a + b + c, s)
  {
    ReadsThen(p, a, q, b, r);
    ReadsThen(p, a + b, r, c, s);
  }

  // ---- the first and last tokens of each derivation ----

  lemma ValuesTokensEnds(vs: seq<AttributeValue>)
    requires vs != []
    ensures |ValuesTokens(vs)| > 0
    ensures ValuesTokens(vs)[0] == AttributeValueString(vs[0].theValue, true)
    ensures ValuesTokens(vs)[|ValuesTokens(vs)| - 1] == AttributeValueString("", false)
    decreases |vs|
  {
    if vs[1..] != [] {
      ValuesTokensEnds(vs[1..]);
    }
  }

  /** The tokens between the VALUES tags: none, or from an opening to a
      closing ATTRIBUTE-VALUE-STRING tag. */
  lemma ValuesBracketed(vs: seq<AttributeValue>)
    ensures var vt := ValuesTokens(vs);
      && (vt == [] || vt[0] != Values(true))
      && ([Values(true)] + vt)[|[Values(true)] + vt| - 1] != Values(false)
  {
    if vs != [] {
      ValuesTokensEnds(vs);
    }
  }

  /** The tokens between the SPEC-OBJECT tags: none, or from an opening
      VALUES to a closing TYPE tag. */
  lemma ContentBracketed(e: Token, c: Option<Body>)
    requires e.SpecObject? && e.open
    ensures var ct := ContentTokens(c);
      && (ct == [] || ct[0] != e)
      && ([e] + ct)[|[e] + ct| - 1] != SpecObject("", false)
  {
  }

  lemma DefinitionTokensJoin(ref: string)
    ensures [Definition(true)] + [AttributeDefinitionStringRef(ref, true), AttributeDefinitionStringRef("", false)]
              + [Definition(false)] == DefinitionTokens(ref)
  {
  }

  lemma TypeTokensJoin(ref: string)
    ensures [Type(true)] + [SpecObjectTypeRef(ref, true), SpecObjectTypeRef("", false)] + [Type(false)] == TypeTokens(ref)
  {
  }

  lemma AttributeValueTokensJoin(a: AttributeValue)
    ensures AttributeValueTokens(a) == [AttributeValueString(a.theValue, true)] + DefinitionTokens(a.definitionRef)
                                       + [AttributeValueString("", false)]
    ensures DefinitionTokens(a.definitionRef)[0] != AttributeValueString(a.theValue, true)
    ensures var h := [AttributeValueString(a.theValue, true)] + DefinitionTokens(a.definitionRef);
      h[|h| - 1] != AttributeValueString("", false)
  {
  }

  /** One more link in front of a chain: its tokens and its tree. */
  lemma ValuesCons(p: Parser, a: AttributeValue, q: Parser, rest: seq<AttributeValue>, r: Parser)
    requires Reads(p, AttributeValueTokens(a), q) && Reads(q, ValuesTokens(rest), r)
    ensures Reads(p, ValuesTokens([a] + rest), r)
    ensures ValuesTree([a] + rest) == Node(VContent, [
              Leaf(AttributeValueString(a.theValue, true)), DefinitionTree(a.definitionRef),
              Leaf(AttributeValueString("", false)), ValuesTree(rest)])
  {
    assert ([a] + rest)[0] == a && ([a] + rest)[1..] == rest;
    if rest != [] {
      ValuesTokensEnds(rest);
    }
    ReadsThen(p, AttributeValueTokens(a), q, ValuesTokens(rest), r);
  }

  lemma ValuesOfLink(c1: Node, c2: Node, c3: Node, c4: Node)
    ensures ValuesOf(Node(VContent, [c1, c2, c3, c4])) == [AttributeValue(Payload(c1.value), DefinitionRefOf(c2))] + ValuesOf(c4)
  {
  }

  // ---- production by production ----

  lemma CleanDContent(p: Parser)
    requires Valid(p) && ParseDContent(p).1.diagnostics == p.diagnostics
    ensures p.lookahead.AttributeDefinitionStringRef? && p.lookahead.open
    ensures ParseDContent(p).0 == Node(DContent, [Leaf(p.lookahead), Leaf(AttributeDefinitionStringRef("", false))])
    ensures Reads(p, [p.lookahead, AttributeDefinitionStringRef("", false)], ParseDContent(p).1)
  {
    if p.lookahead.AttributeDefinitionStringRef? && p.lookahead.open {
      var e := AttributeDefinitionStringRef(p.lookahead.value, true);
      var f := AttributeDefinitionStringRef("", false);
      var (_, p1) := Eat(p, e);
      var (_, p2) := Eat(p1, f);
      CleanEat(p, e);
      CleanEat(p1, f);
      ReadsThen(p, [e], p1, [f], p2);
      assert [e] + [f] == [p.lookahead, f];
    }
  }

  lemma CleanTContent(p: Parser)
    requires Valid(p) && ParseTContent(p).1.diagnostics == p.diagnostics
    ensures p.lookahead.SpecObjectTypeRef? && p.lookahead.open
    ensures ParseTContent(p).0 == TypeTree(p.lookahead.value)
    ensures Reads(p, [p.lookahead, SpecObjectTypeRef("", false)], ParseTContent(p).1)
  {
    if p.lookahead.SpecObjectTypeRef? && p.lookahead.open {
      var e := SpecObjectTypeRef(p.lookahead.value, true);
      var f := SpecObjectTypeRef("", false);
      var (_, p1) := Eat(p, e);
      var (_, p2) := Eat(p1, f);
      CleanEat(p, e);
      CleanEat(p1, f);
      ReadsThen(p, [e], p1, [f], p2);
      assert [e] + [f] == [p.lookahead, f];
    }
  }

  lemma CleanAvsContent(p: Parser)
    requires Valid(p) && ParseAvsContent(p).1.diagnostics == p.diagnostics
    ensures var (n, q) := ParseAvsContent(p);
      n == DefinitionTree(DefinitionRefOf(n)) && Reads(p, DefinitionTokens(DefinitionRefOf(n)), q)
  {
    if p.lookahead == Definition(true) {
      var (_, p1) := Eat(p, Definition(true));
      var (c2, p2) := ParseDContent(p1);
      var (_, p3) := Eat(p2, Definition(false));
      CleanEat(p, Definition(true));
      CleanDContent(p1);
      CleanEat(p2, Definition(false));
      ReadsThree(p, [Definition(true)], p1, [p1.lookahead, AttributeDefinitionStringRef("", false)], p2, [Definition(false)], p3);
      DefinitionTokensJoin(p1.lookahead.value);
    }
  }

  lemma CleanVContentHead(p: Parser)
    requires Valid(p) && p.lookahead.AttributeValueString? && p.lookahead.open
    requires VContentHead(p).3.diagnostics == p.diagnostics
    ensures var (c1, c2, c3, q) := VContentHead(p);
      var a := AttributeValue(p.lookahead.value, DefinitionRefOf(c2));
      && c1 == Leaf(p.lookahead) && c2 == DefinitionTree(a.definitionRef)
      && c3 == Leaf(AttributeValueString("", false))
      && Reads(p, AttributeValueTokens(a), q)
  {
    var e := AttributeValueString(p.lookahead.value, true);
    var f := AttributeValueString("", false);
    var (_, p1) := Eat(p, e);
    var (c2, p2) := ParseAvsContent(p1);
    var (_, p3) := Eat(p2, f);
    CleanEat(p, e);
    CleanAvsContent(p1);
    CleanEat(p2, f);
    var a := AttributeValue(p.lookahead.value, DefinitionRefOf(c2));
    AttributeValueTokensJoin(a);
    ReadsThree(p, [e], p1, DefinitionTokens(a.definitionRef), p2, [f], p3);
  }

  /** A VCONTENT chain parsed with nothing reported is the tree of the
      ATTRIBUTE-VALUE-STRING elements read, and it stops on a closing
      VALUES tag. */
  lemma {:induction false} CleanVContent(p: Parser)
    requires Valid(p) && ParseVContent(p).Returns? && ParseVContent(p).state.diagnostics == p.diagnostics
    ensures var r := ParseVContent(p);
      && r.node == ValuesTree(ValuesOf(r.node))
      && Reads(p, ValuesTokens(ValuesOf(r.node)), r.state)
      && r.state.lookahead == Values(false)
    decreases |p.lexer.tokens| - p.lexer.counter
  {
    if p.lookahead.AttributeValueString? && p.lookahead.open {
      var (c1, c2, c3, q) := VContentHead(p);
      var c4, q' := ParseVContent(q).node, ParseVContent(q).state;
      VContentSteps(p, c1, c2, c3, q, c4, q');
      CleanVContentHead(p);
      CleanVContent(q);
      ValuesOfLink(c1, c2, c3, c4);
      ValuesCons(p, AttributeValue(p.lookahead.value, DefinitionRefOf(c2)), q, ValuesOf(c4), q');
    } else {
      ReadsNothing(p);
    }
  }

  /** The TYPE part of the non-empty CONTENT alternative, with nothing
      reported. */
  lemma CleanType(p3: Parser, p4: Parser, c5: Node, p5: Parser, p6: Parser)
    requires Valid(p3) && Eat(p3, Type(true)).1 == p4 && Valid(p4)
    requires ParseTContent(p4) == (c5, p5) && Valid(p5) && Eat(p5, Type(false)).1 == p6
    requires p6.diagnostics == p3.diagnostics
    ensures c5 == TypeTree(TypeRefOf(c5)) && Reads(p3, TypeTokens(TypeRefOf(c5)), p6)
  {
    CleanEat(p3, Type(true));
    CleanTContent(p4);
    CleanEat(p5, Type(false));
    ReadsThree(p3, [Type(true)], p4, [p4.lookahead, SpecObjectTypeRef("", false)], p5, [Type(false)], p6);
    TypeTokensJoin(p4.lookahead.value);
  }

  /** The VALUES part of the non-empty CONTENT alternative, with nothing
      reported. */
  lemma CleanValues(p: Parser, p1: Parser, c2: Node, p2: Parser, p3: Parser)
    requires Valid(p) && Eat(p, Values(true)).1 == p1 && Valid(p1)
    requires ParseVContent(p1) == Returns(c2, p2) && Valid(p2) && Eat(p2, Values(false)).1 == p3
    requires p3.diagnostics == p.diagnostics
    ensures c2 == ValuesTree(ValuesOf(c2))
    ensures Reads(p, [Values(true)] + ValuesTokens(ValuesOf(c2)) + [Values(false)], p3)
  {
    CleanEat(p, Values(true));
    CleanVContent(p1);
    CleanEat(p2, Values(false));
    ValuesBracketed(ValuesOf(c2));
    ReadsThree(p, [Values(true)], p1, ValuesTokens(ValuesOf(c2)), p2, [Values(false)], p3);
  }

  /** The non-empty CONTENT tree read back from its VALUES and TYPE parts. */
  lemma ContentAssembled(c2: Node, c5: Node)
    requires c2 == ValuesTree(ValuesOf(c2)) && c5 == TypeTree(TypeRefOf(c5))
    ensures var n := Node(Content, [Leaf(Values(true)), c2, Leaf(Values(false)), Leaf(Type(true)), c5, Leaf(Type(false))]);
      && ContentOf(n) == Some(Body(ValuesOf(c2), TypeRefOf(c5)))
      && n == ContentTree(ContentOf(n))
      && ContentTokens(ContentOf(n)) == [Values(true)] + ValuesTokens(ValuesOf(c2)) + [Values(false)] + TypeTokens(TypeRefOf(c5))
  {
  }

  /** CONTENT parsed with nothing reported is the tree of the derivation
      read. */
  lemma CleanContent(p: Parser)
    requires Valid(p) && ParseContent(p).Returns? && ParseContent(p).state.diagnostics == p.diagnostics
    ensures var r := ParseContent(p);
      r.node == ContentTree(ContentOf(r.node)) && Reads(p, ContentTokens(ContentOf(r.node)), r.state)
  {
    if p.lookahead == Values(true) {
      var (_, p1) := Eat(p, Values(true));
      var c2, p2 := ParseVContent(p1).node, ParseVContent(p1).state;
      var (_, p3) := Eat(p2, Values(false));
      var (_, p4) := Eat(p3, Type(true));
      var (c5, p5) := ParseTContent(p4);
      var (_, p6) := Eat(p5, Type(false));
      ContentSteps(p, c2, c5, p1, p2, p3, p4, p5, p6);
      CleanValues(p, p1, c2, p2, p3);
      CleanType(p3, p4, c5, p5, p6);
      ContentAssembled(c2, c5);
      ReadsThen(p, [Values(true)] + ValuesTokens(ValuesOf(c2)) + [Values(false)], p3, TypeTokens(TypeRefOf(c5)), p6);
    } else {
      ReadsNothing(p);
    }
  }

  /** A whole parse that returns without a report has read, from the
      first token on, the tokens of the derivation its tree is built from;
      it stands just past them, or on the last token when they fill the
      input. */
  lemma CleanParse(tokens: seq<Token>)
    requires |tokens| > 0 && Parse(tokens).Returns? && Parse(tokens).state.diagnostics == []
    ensures var r := Parse(tokens);
      var d := DocumentOf(r.node);
      && r.node == DocumentTree(d)
      && DocumentTokens(d) <= tokens
      && r.state.lexer.counter == Min(|DocumentTokens(d)| + 1, |tokens|)
  {
    var p := Init(tokens);
    if p.lookahead.SpecObject? && p.lookahead.open {
      var e := SpecObject(p.lookahead.value, true);
      var f := SpecObject("", false);
      var (c1, p1) := Eat(p, e);
      var c2, p2 := ParseContent(p1).node, ParseContent(p1).state;
      var (c3, p3) := Eat(p2, f);
      assert Parse(tokens) == Returns(Node(Root, [c1, c2, c3]), p3);
      CleanEat(p, e);
      CleanContent(p1);
      CleanEat(p2, f);
      ContentBracketed(e, ContentOf(c2));
      ReadsThree(p, [e], p1, ContentTokens(ContentOf(c2)), p2, [f], p3);
    }
  }

  /** The input begins with the tokens of some document. */
  ghost predicate StartsWithDocument(tokens: seq<Token>) {
    exists d: Document :: DocumentTokens(d) <= tokens
  }

  /** A parse returns without a single report exactly when the input begins
      with the tokens of a document; anything after them is never looked at. */
  lemma ParseReportsNothingExactlyOnDocuments(tokens: seq<Token>)
    requires |tokens| > 0
    ensures (Parse(tokens).Returns? && Parse(tokens).state.diagnostics == []) <==> StartsWithDocument(tokens)
  {
    if Parse(tokens).Returns? && Parse(tokens).state.diagnostics == [] {
      CleanParse(tokens);
      var d := DocumentOf(Parse(tokens).node);
      assert DocumentTokens(d) <= tokens;
    }
    if StartsWithDocument(tokens) {
      var d :| DocumentTokens(d) <= tokens;
      var rest := tokens[|DocumentTokens(d)|..];
      assert DocumentTokens(d) + rest == tokens;
      DocumentAccepted(d, rest);
    }
  }
}

=== FILE: tokens.dfy ===
/** Tokens of the ReqIF subset recognised by the parser.

    Seven payload-free labels name the non-terminals and only ever appear as
    tree labels; seven paired terminal kinds stand for the opening and closing
    tags of the XML elements SPEC-OBJECT, SPEC-OBJECT-TYPE-REF, VALUES, TYPE,
    ATTRIBUTE-VALUE-STRING, DEFINITION and ATTRIBUTE-DEFINITION-STRING-REF.
    Four of the terminal kinds carry a text payload.
 */
module Tokens {

  datatype Token =
    | Root
    | Content
    | VContent
    | AvsContent
    | DContent
    | TContent
    | Error
    | SpecObject(value: string, open: bool)
    | SpecObjectTypeRef(value: string, open: bool)
    | Values(open: bool)
    | Type(open: bool)
    | AttributeValueString(value: string, open: bool)
    | Definition(open: bool)
    | AttributeDefinitionStringRef(value: string, open: bool)

  /** The element a terminal stands for; the non-terminal labels have none. */
  datatype Tag =
    | NoTag
    | SpecObjectTag
    | SpecObjectTypeRefTag
    | ValuesTag
    | TypeTag
    | AttributeValueStringTag
    | DefinitionTag
    | AttributeDefinitionStringRefTag

  function TagOf(t: Token): Tag {
    match t
    case SpecObject(_, _) => SpecObjectTag
    case SpecObjectTypeRef(_, _) => SpecObjectTypeRefTag
    case Values(_) => ValuesTag
    case Type(_) => TypeTag
    case AttributeValueString(_, _) => AttributeValueStringTag
    case Definition(_) => DefinitionTag
    case AttributeDefinitionStringRef(_, _) => AttributeDefinitionStringRefTag
    case _ => NoTag
  }

  predicate IsTerminal(t: Token) {
    TagOf(t) != NoTag
  }

  /** The payload of a terminal; the payload-free kinds read as "". */
  function Payload(t: Token): string {
    match t
    case SpecObject(v, _) => v
    case SpecObjectTypeRef(v, _) => v
    case AttributeValueString(v, _) => v
    case AttributeDefinitionStringRef(v, _) => v
    case _ => ""
  }

  /** The parser's token comparison: two terminals of the same element with
      the same payload and the same opening flag. The payload is compared on
      closing tags too, and a non-terminal label equals nothing, not even
      itself. */
  function TokensAreEqual(a: Token, b: Token): (r: bool)
    ensures r <==> IsTerminal(a) && TagOf(a) == TagOf(b) && Payload(a) == Payload(b) && a.open == b.open
  {
    match a
    case SpecObject(v, o) => b.SpecObject? && b.value == v && b.open == o
    case SpecObjectTypeRef(v, o) => b.SpecObjectTypeRef? && b.value == v && b.open == o
    case AttributeValueString(v, o) => b.AttributeValueString? && b.value == v && b.open == o
    case AttributeDefinitionStringRef(v, o) => b.AttributeDefinitionStringRef? && b.value == v && b.open == o
    case Values(o) => b.Values? && b.open == o
    case Type(o) => b.Type? && b.open == o
    case Definition(o) => b.Definition? && b.open == o
    case _ => false
  }

  /** On terminals the comparison is plain structural equality. */
  lemma TokensAreEqualIsStructural(a: Token, b: Token)
    ensures TokensAreEqual(a, b) <==> IsTerminal(a) && a == b
  {
  }

  lemma TokensAreEqualSymmetric(a: Token, b: Token)
    ensures TokensAreEqual(a, b) <==> TokensAreEqual(b, a)
  {
  }

  /** A non-terminal label is equal to no token, itself included, so the
      comparison is not reflexive. */
  lemma LabelsEqualNothing(t: Token, u: Token)
    requires !IsTerminal(t)
    ensures !TokensAreEqual(t, u) && !TokensAreEqual(u, t) && !TokensAreEqual(t, t)
  {
  }

  /** The payload-carrying closing tags the parser expects carry "": a
      closer found in the input matches one of them only when its own
      payload is "" too. */
  lemma ClosersMatchOnlyEmptyPayload(found: Token)
    ensures TokensAreEqual(SpecObject("", false), found) <==> found == SpecObject("", false)
    ensures TokensAreEqual(AttributeValueString("", false), found) <==> found == AttributeValueString("", false)
    ensures TokensAreEqual(SpecObjectTypeRef("", false), found) <==> found == SpecObjectTypeRef("", false)
    ensures TokensAreEqual(AttributeDefinitionStringRef("", false), found) <==> found == AttributeDefinitionStringRef("", false)
  {
  }
}
